=== FILE: README.md ===
# Cycle trainer timing core, modelled in Dafny

This project models the timing core of an interval-training stopwatch web
app. The app has two training modes:

- **Mode 1 (timed cycles).** An optional buffer countdown comes first. Then
  cycles of a fixed duration alternate with optional rests, for a set number
  of rounds or without limit.
- **Mode 2 (manual laps).** The user starts, ends rounds, stops, resumes and
  finishes. Each ended round becomes a lap record.

Finished runs become training sessions. The app keeps them in a session
list and shows them on results screens with formatted times and lap
statistics.

Every handler is a pure function over an immutable state. The clock is an
integer-millisecond parameter `now`, standing for `Date.now()`. Durations
are seconds held as `real`, standing for JavaScript numbers, so
`(now - start) / 1000` is exact here.

| file | module | models |
|---|---|---|
| `types.dfy` | `Types` | the records of `src/utils/types.ts` |
| `timer.dfy` | `UseTimer` | the elapsed-time accumulator `useTimer` |
| `mode1_training.dfy` | `Mode1Training` | the timed-cycle state machine |
| `mode2_training.dfy` | `Mode2Training` | the manual-lap state machine and its button table |
| `config_form.dfy` | `ConfigForm` | validation, the submit gate and input normalisation of the timed-mode form |
| `digits.dfy`, `jsmath.dfy` | `Digits`, `JsMath` | `toString`, `padStart`, `Math.floor` and JavaScript `%`, plus a decimal parser |
| `timer_display.dfy` | `TimerDisplay` | the "MM:SS" clock face |
| `mode1_results.dfy` | `Mode1Results` | the "Xm Ys" summary formatter |
| `mode2_results.dfy` | `Mode2Results` | chart data, lap statistics and bar widths |
| `local_storage.dfy` | `LocalStorage` | the session store as operations on a list |
| `app.dfy` | `App` | assembling sessions and switching views |
| `wrappers.dfy` | `Wrappers` | `Option` |

Each state machine has an event dispatcher: `Mode1Training.Apply` and
`Mode2Training.Press`. A dispatcher runs a handler only when the screen
renders the button for it, and for End Round only when that button is
enabled. In mode 1 the countdown is an abstract `Expire` event, meaning "the
active phase's remaining time reached zero". An invariant (`Inv`) holds in
every state that a run of events reaches from the idle screen. For mode 2
this assumes the clock never goes back.

Where the code behaves differently from a natural reading of the app, the
model follows the code:

- In mode 1, cycle expiry with a positive rest time always enters rest, even
  after the last permitted cycle. The round limit is checked only when the
  rest expires. So a run with `numberOfCycles = 1` and a rest time still
  goes through one rest phase before it finishes.
- In mode 2, the Finish button is shown only on the stopped screen.
  `useTimer.pause` leaves `isRunning` true. So finishing always seals the
  open lap, and its wall-clock duration includes the stopped time.
- `useTimer.pause` keeps `isRunning` true and clears the start timestamp.
  `restart` writes the paused flag only when the timer was not running.

## Model

| member | source | states |
|---|---|---|
| `Types.SecondsBetween` | src/components/Mode2Training.tsx:72-73 | the seconds between two clock readings, times 1000, are the milliseconds between them; they are non-negative exactly when the later reading is not earlier, and zero for equal readings |
| `UseTimer.InitialIsZero` | src/hooks/useTimer.ts:15-19 | a fresh timer reads zero elapsed, is neither running nor paused, and is a valid state |
| `UseTimer.Start` | src/hooks/useTimer.ts:45-51 | start on a running timer changes nothing; otherwise it records `now` as the start, sets running and clears paused, and keeps the accumulated base |
| `UseTimer.Pause` | src/hooks/useTimer.ts:53-61 | pause acts only on a running, unpaused timer; it folds the running stretch into the base, so the base equals the elapsed value at `now`, clears the start and leaves the timer running and paused |
| `UseTimer.Resume` | src/hooks/useTimer.ts:63-68 | resume acts only on a running, paused timer; it restarts the stretch at `now`, clears paused and keeps the base |
| `UseTimer.Reset` | src/hooks/useTimer.ts:70-80 | reset returns exactly to the initial timer, which reads zero at every clock value |
| `UseTimer.Restart` | src/hooks/useTimer.ts:82-91 | restart zeroes the base, starts at `now`, reads zero at `now` and is running; it is paused afterwards exactly when it was already running and paused |
| `UseTimer.PausedIsFrozen` | src/hooks/useTimer.ts:22-36 | while paused, or stopped, the elapsed value is the same whatever the clock reads |
| `UseTimer.ElapsedGrowsWithClock` | src/hooks/useTimer.ts:22-36 | in a valid state a later clock reading never gives a smaller elapsed value, and never less than the base |
| `UseTimer.HandlersKeepValid` | src/hooks/useTimer.ts:45-91 | every handler keeps the timer valid when the clock has not gone back: a stopped timer is the initial one, a running unpaused timer has a start, and no start lies in the future |
| `UseTimer.HandlersDoNotJump` | src/hooks/useTimer.ts:45-68 | start, pause and resume leave the elapsed value read at that instant unchanged |
| `UseTimer.ElapsedNeverDecreases` | src/hooks/useTimer.test.tsx:127-158 | over any sequence of start, pause and resume calls and samples on a monotone clock, without reset, the final elapsed value is at least the initial one and the state stays valid |
| `UseTimer.PauseFreezesScenario` | src/hooks/useTimer.test.tsx:46-72 | start, one second, pause: the timer reads one second at the pause and still one second a second later, and it is running and paused |
| `JsMath.Trunc` | src/components/TimerDisplay.tsx:16 | truncation toward zero: a non-negative number lies in [t, t+1), a negative one in (t−1, t] |
| `JsMath.Rem` | src/components/TimerDisplay.tsx:16 | JavaScript `%` with a positive divisor: the dividend minus the result is a whole multiple of m, and the result has the dividend's sign, in [0, m) for a non-negative dividend and in (−m, 0] for a negative one, which together fix it as the truncating remainder |
| `JsMath.WholeQuotient` | src/components/TimerDisplay.tsx:16 | taking t whole m's from x leaves a difference that is a whole multiple of m |
| `JsMath.QuotientBounds` | src/components/TimerDisplay.tsx:16 | subtracting m times the truncated quotient leaves a remainder with the dividend's sign and a magnitude below m |
| `JsMath.MinutesSeconds` | src/components/TimerDisplay.tsx:15-16 | for non-negative seconds, `floor(s / 60)` minutes and `floor(s % 60)` seconds, in 0..59, recombine to `floor(s)` |
| `Digits.NatToString` | src/components/TimerDisplay.tsx:17 | `toString` of a whole number is a non-empty run of digits, one digit exactly below 10 and at most two below 100, and it starts with '0' only for zero itself |
| `Digits.IntToString` | src/components/Mode1Results.tsx:26 | `toString` of a non-negative number is digits that read back as the number; of a negative number, a minus sign followed by digits that read back as its magnitude |
| `Digits.Repeat` | src/components/TimerDisplay.tsx:17 | k copies of the fill character: length k, every position the fill |
| `Digits.PadStart` | src/components/TimerDisplay.tsx:17 | `padStart` returns a text at least as wide as the width unchanged; a shorter one becomes exactly the width, fill characters followed by the text itself |
| `Digits.PadStartSuffix` | src/components/TimerDisplay.tsx:17 | whatever the width, the padded text ends with the original text |
| `Digits.ParseNatToString` | src/components/TimerDisplay.tsx:17 | reading back the decimal rendering of a number gives the number |
| `Digits.PaddedNatRoundTrip` | src/components/TimerDisplay.tsx:17 | padding a rendered number with leading zeros keeps it all digits and does not change the value read back |
| `TimerDisplay.FormatTime` | src/components/TimerDisplay.tsx:14-18 | the face is always at least five characters long, and for a non-negative time the colon is third from the end |
| `TimerDisplay.FaceShape` | src/components/TimerDisplay.tsx:17 | for non-negative minutes and seconds below 60, the face is the padded minutes, a colon and the two-digit seconds, and both fields read back as the numbers |
| `TimerDisplay.PaddedField` | src/components/TimerDisplay.tsx:17 | a padded field is at least two digits, exactly two below 100, and reads back as its number |
| `TimerDisplay.FaceReadsBack` | src/components/TimerDisplay.tsx:17 | such a face reads back as minutes times 60 plus seconds |
| `TimerDisplay.FormatTimeShape` | src/components/TimerDisplay.tsx:14-18 | for non-negative input the face has a colon third from the end, is at least five characters long, both fields are digits, the seconds field is at most 59, and the minutes field is the padded minute count, never capped |
| `TimerDisplay.ParseFormatTime` | src/components/TimerDisplay.tsx:14-18 | reading the "MM:SS" face back as minutes times 60 plus seconds gives `floor(s)` for every non-negative input |
| `TimerDisplay.ExampleTwoMinutes` | src/components/TimerDisplay.test.tsx:6-29 | 125 and 125.7 seconds both show "02:05", so fractions are floored |
| `TimerDisplay.ExampleSmall` | src/components/TimerDisplay.test.tsx:11-19 | 0 seconds show "00:00" and 65 seconds show "01:05" |
| `TimerDisplay.ExampleLarge` | src/components/TimerDisplay.test.tsx:21-24 | 3661 seconds show "61:01" |
| `Mode1Results.FormatTime` | src/components/Mode1Results.tsx:23-27 | the summary text is at least five characters long and ends in the unit letter `s` |
| `Mode1Results.ParseFormatTime` | src/components/Mode1Results.tsx:23-27 | for non-negative input the text is the unpadded minutes, "m ", the unpadded seconds in 0..59 and "s", and reading it back gives `floor(s)` |
| `Mode1Results.RenderReadsBack` | src/components/Mode1Results.tsx:36-50 | the cycle duration and the total time both go through the same formatter and each reads back as its floored input; the rounds read back as the count |
| `Mode1Results.Example` | src/components/Mode1Results.tsx:23-27 | 125 seconds show "2m 5s" and 0 seconds show "0m 0s" |
| `ConfigForm.Errors` | src/components/Mode1Config.tsx:19-35 | the error map has a key for exactly each violated field, with that field's message: duration not positive, negative rest, numeric cycle count not positive, negative buffer |
| `ConfigForm.Validate` | src/components/Mode1Config.tsx:18-39 | validation passes exactly when all four conditions hold, stores exactly the error map of the violated fields with their messages, and keeps the values |
| `ConfigForm.HandleSubmit` | src/components/Mode1Config.tsx:41-51 | a configuration is submitted exactly when it validates, and then with the four values unchanged; the form keeps the values and shows exactly the violated fields' messages |
| `ConfigForm.DefaultsSubmit` | src/components/Mode1Config.test.tsx:17-30 | the untouched form submits 60 / 30 / unlimited / 5 and shows no errors |
| `ConfigForm.ZeroCycleDurationRejected` | src/components/Mode1Config.test.tsx:32-44 | a zero cycle duration submits nothing and flags only the duration field |
| `ConfigForm.OnCyclesInput` | src/components/Mode1Config.tsx:125-135 | an emptied count box sets 1, text that is not a number leaves the count unchanged, and a number is taken as typed |
| `ConfigForm.OnFixedRadio` | src/components/Mode1Config.tsx:113-119 | the fixed-count radio fires only when it becomes checked: leaving "unlimited" sets the count to 1, and a click while a count shows keeps that count |
| `ConfigForm.OnUnlimitedRadio` | src/components/Mode1Config.tsx:104-112 | the unlimited radio always leaves the count unlimited |
| `ConfigForm.CyclesInputValidity` | src/components/Mode1Config.tsx:104-135 | the unlimited radio always leaves a count that validates, and so does the fixed radio when it leaves "unlimited"; clicking the fixed radio while a count shows keeps that count's verdict; after typing, the count field fails validation exactly when a typed number is not positive, or when non-numeric text leaves an already failing count in place |
| `Mode1Training.StartTraining` | src/components/Mode1Training.tsx:132-150 | start records the run's start time; with a buffer it enters the buffer phase with round and entries unchanged; without one it enters cycle 1 and appends entry {1, cycleDuration} |
| `Mode1Training.FinishTraining` | src/components/Mode1Training.tsx:165-185 | finish enters the finished phase and reports the current round as totalRounds, the (number, duration) list in order, and a total of (now − run start)/1000 seconds, which is non-negative on a clock that has not gone back, or 0 when the run never started |
| `Mode1Training.HandleStateTransition` | src/components/Mode1Training.tsx:60-130 | expiry while paused, idle or finished changes nothing; it never touches the paused flag or the start time; it reports finish data exactly when it finishes the run |
| `Mode1Training.PauseTraining` | src/components/Mode1Training.tsx:152-156 | pause sets the paused flag only outside idle and finished and changes nothing else |
| `Mode1Training.ResumeTraining` | src/components/Mode1Training.tsx:158-163 | resume leaves the run unpaused and changes nothing else |
| `Mode1Training.SealLast` | src/components/Mode1Training.tsx:78-81 | sealing sets only the last entry's duration |
| `Mode1Training.Summaries` | src/components/Mode1Training.tsx:180-183 | the report lists each entry's number and duration, one per entry, in order |
| `Mode1Training.Apply` | src/components/Mode1Training.tsx:216-238 | Start does nothing outside idle; no other event moves an idle or finished run; a finish is reported only from an active phase by Finish or by expiry; Finish in an active phase always reports one |
| `Mode1Training.InitialInv` | src/components/Mode1Training.tsx:20-28 | the idle screen satisfies the invariant |
| `Mode1Training.SealIsIdentity` | src/components/Mode1Training.tsx:78-81 | sealing with the configured duration changes no entry of a valid run |
| `Mode1Training.ApplyKeepsInv` | src/components/Mode1Training.tsx:60-185 | every event keeps the invariant: entries numbered 1..currentRound with the configured duration, round 0 and no entries when idle or in the buffer, rest only with a positive rest time, and no round beyond a numeric limit except round 1 |
| `Mode1Training.RunKeepsInv` | src/components/Mode1Training.tsx:60-185 | every state reached by any sequence of events satisfies the invariant |
| `Mode1Training.StartFromIdle` | src/components/Mode1Training.tsx:132-150 | from idle, a buffer time gives the buffer phase at round 0 with no entries; otherwise cycle 1 with exactly the entry {1, cycleDuration} |
| `Mode1Training.BufferExpiry` | src/components/Mode1Training.tsx:63-75 | buffer expiry enters cycle 1 and the entries become exactly [#1] |
| `Mode1Training.CycleExpiryEntersRest` | src/components/Mode1Training.tsx:76-86 | with a positive rest time, cycle expiry enters rest with round and entries unchanged, even at the round limit |
| `Mode1Training.AdvanceOrFinish` | src/components/Mode1Training.tsx:88-128 | rest expiry, and cycle expiry without rest, open round+1 with one appended entry when that round is permitted, and otherwise finish with the entries unchanged and totalRounds = the current round |
| `Mode1Training.RoundWithinLimit` | src/components/Mode1Training.tsx:89-114 | with a numeric limit of at least 1 the round never exceeds it |
| `Mode1Training.NoRestWithoutRestTime` | src/components/Mode1Training.tsx:83-106 | without a rest time a run never is in the rest phase |
| `Mode1Training.UnlimitedNeverExpiresToFinish` | src/components/Mode1Training.tsx:90-128 | an unlimited run is never finished by expiry |
| `Mode1Training.PauseGating` | src/components/Mode1Training.tsx:152-163 | while paused expiry changes nothing; Pause leaves the run paused exactly when it was paused or active; Resume does nothing unless paused; neither changes anything but the flag |
| `Mode1Training.FinishedIsInert` | src/components/Mode1Training.tsx:60-130 | a finished run ignores every event, and an idle run ignores expiry |
| `Mode1Training.FinishReport` | src/components/Mode1Training.tsx:165-185 | whichever event finishes a valid run, it was active, the report has totalRounds = current round = number of entries, entry i is {i+1, cycleDuration}, and finishing from the buffer reports zero rounds and no entries |
| `Mode1Training.CyclesAppendOnly` | src/components/Mode1Training.tsx:71-124 | every event keeps the old entries as a prefix and appends at most one |
| `Mode1Training.TwoCyclesWithRest` | src/components/Mode1Training.tsx:76-128 | 60/30/2 cycles/no buffer goes cycle 1, rest, cycle 2, rest, finished, reporting two rounds of 60 s and 180 s in total |
| `Mode1Training.UnlimitedWithBuffer` | src/components/Mode1Training.tsx:63-107 | 10/0/unlimited/5 goes buffer, then cycles 1, 2 and 3 with no rest between |
| `Mode2Training.GetButtonStates` | src/components/Mode2Training.tsx:25-59 | before the start only Start; when stopped End Round shown but disabled, with Resume and Finish; when running End Round enabled and Stop, no Finish |
| `Mode2Training.Lap` | src/components/Mode2Training.tsx:72-80 | a lap has the round as its number, the lap start as its start time, the reading at the click as its end time, and (end − start)/1000 seconds as its duration, which is non-negative for a non-decreasing clock |
| `Mode2Training.HandleStart` | src/components/Mode2Training.tsx:61-68 | start sets round 1, opens the lap and the run at `now`, starts the timer and clears the stopped flag |
| `Mode2Training.HandleEndRound` | src/components/Mode2Training.tsx:70-88 | with an open lap, End Round appends {round, lap start, now, now − lap start}, increments the round, reopens the lap at `now`, and restarts the timer (`restart` at `now`), so it reads zero and runs; without one nothing happens |
| `Mode2Training.HandleStop` | src/components/Mode2Training.tsx:90-94 | stop pauses the timer and sets stopped; laps, round and lap start are unchanged |
| `Mode2Training.HandleResume` | src/components/Mode2Training.tsx:96-100 | resume resumes the timer and clears stopped; laps, round and lap start are unchanged |
| `Mode2Training.HandleFinish` | src/components/Mode2Training.tsx:102-129 | finish appends the open lap ending at `now` exactly when a lap was opened and the timer reports running; the total is the wall time since the start, or 0 if the run never started |
| `Mode2Training.Press` | src/components/Mode2Training.tsx:157-194 | a finish is reported exactly for a Finish click on the stopped screen after the start; Start does nothing after the start; End Round and Stop do nothing before the start or while stopped; Resume does nothing unless stopped |
| `Mode2Training.InitialInv` | src/components/Mode2Training.tsx:16-23 | the freshly mounted screen satisfies the invariant |
| `Mode2Training.PressKeepsInv` | src/components/Mode2Training.tsx:157-194 | on a non-decreasing clock every click keeps the invariant: after k laps they are numbered 1..k, the round is k+1, each lap is sealed with duration = (end − start)/1000 ≥ 0, and the timer runs, paused exactly when stopped |
| `Mode2Training.RunKeepsInv` | src/components/Mode2Training.tsx:61-129 | any sequence of clicks on a monotone clock ends in a state satisfying the invariant |
| `Mode2Training.EndRoundOnlyWhileRunning` | src/components/Mode2Training.tsx:168-176 | End Round is clickable exactly while the timer is running and not paused; on the stopped screen a click on it changes nothing |
| `Mode2Training.StopResumeKeepLaps` | src/components/Mode2Training.tsx:90-100 | Stop and Resume clicks change neither the laps nor the round, and report nothing |
| `Mode2Training.FinishSealsOpenLap` | src/components/Mode2Training.tsx:102-123 | a finish happens only from the stopped screen, and it always appends the open lap ending at `now`, so laps are numbered 1..round and sealed, and the total is the non-negative time since the start |
| `Mode2Training.FinishBeforeStart` | src/components/Mode2Training.tsx:102-123 | finishing a run that never started reports no laps and zero time |
| `Mode2Training.ManualScenario` | src/components/Mode2Training.tsx:61-129 | start, two ends, stop, a refused End Round, resume, stop, finish gives laps 1, 2, 3 of 10 s, 15 s and 35 s, the last including stopped time, in 60 s total |
| `Mode2Results.ChartData` | src/components/Mode2Results.tsx:23-28 | the chart never has more points than there are records |
| `Mode2Results.Durations` | src/components/Mode2Results.tsx:31-33 | the defined durations are never more than the records |
| `Mode2Results.ComputeStatistics` | src/components/Mode2Results.tsx:30-50 | total is the number of defined durations, all four figures are 0 when there are none, and otherwise min ≤ max |
| `Mode2Results.BarWidth` | src/components/Mode2Results.tsx:121-123 | with no positive max the bar is 0, otherwise the bar times the max is the duration times 100 |
| `Mode2Results.ChartDataAppend` | src/components/Mode2Results.tsx:23-33 | chart data and durations distribute over concatenation, so they keep input order |
| `Mode2Results.ChartMatchesDurations` | src/components/Mode2Results.tsx:23-33 | chart points pair one to one, in order, with the defined durations; each point comes from a record with that number and duration, and each record with a duration appears |
| `Mode2Results.Min` | src/components/Mode2Results.tsx:47 | the minimum is at most every duration and is one of them |
| `Mode2Results.Max` | src/components/Mode2Results.tsx:48 | the maximum is at least every duration and is one of them |
| `Mode2Results.SumBetween` | src/components/Mode2Results.tsx:46 | the sum lies between the count times any lower bound and the count times any upper bound |
| `Mode2Results.AverageBetween` | src/components/Mode2Results.tsx:46 | the mean lies between any bounds of the durations |
| `Mode2Results.StatisticsSound` | src/components/Mode2Results.tsx:30-50 | with no durations all four statistics are 0; otherwise total = number of durations, average = sum/count, min and max bound and occur among them, and min ≤ average ≤ max |
| `Mode2Results.BarWidthBounded` | src/components/Mode2Results.tsx:121-123 | a duration between 0 and the max draws a bar of 0..100 percent, and the longest one draws 100 |
| `Mode2Results.ChartBarsBounded` | src/components/Mode2Results.tsx:109-125 | with non-negative durations every bar of the chart is within 0..100 percent |
| `LocalStorage.Without` | src/hooks/useLocalStorage.ts:41 | deletion keeps exactly the sessions with another id and never grows the list |
| `LocalStorage.SaveSession` | src/hooks/useLocalStorage.ts:20-29 | a successful save appends at the end and keeps the earlier sessions; a failed write leaves the list unchanged and signals failure |
| `LocalStorage.GetSession` | src/hooks/useLocalStorage.ts:31-33 | lookup finds nothing exactly when no session has the id; otherwise it returns a session with that id with no earlier one |
| `LocalStorage.GetAllSessions` | src/hooks/useLocalStorage.ts:35-37 | listing returns the held sessions, all of them in stored order |
| `LocalStorage.DeleteSession` | src/hooks/useLocalStorage.ts:39-48 | a successful delete removes every session with the id; a failed write leaves the list unchanged and signals failure |
| `LocalStorage.ClearAllSessions` | src/hooks/useLocalStorage.ts:50-58 | a successful clear empties the list; a failed one leaves it unchanged and signals failure |
| `LocalStorage.WithoutAppend` | src/hooks/useLocalStorage.ts:41 | deletion distributes over concatenation, so the survivors keep their relative order |
| `LocalStorage.WithoutSingle` | src/hooks/useLocalStorage.ts:41 | a single session survives deletion exactly when its id differs |
| `LocalStorage.WithoutAbsent` | src/hooks/useLocalStorage.ts:41 | deleting an absent id leaves the list exactly as it was |
| `LocalStorage.DeleteIdempotent` | src/hooks/useLocalStorage.ts:39-48 | deleting twice equals deleting once, and afterwards the id is not found |
| `LocalStorage.SaveThenGet` | src/hooks/useLocalStorage.ts:20-33 | after a save the earlier list is a prefix, and looking up the saved id finds an earlier session with it, or else the saved one |
| `LocalStorage.FailedWriteKeepsList` | src/hooks/useLocalStorage.ts:20-58 | a failed save, delete or clear leaves the list as the current list and signals failure |
| `App.HandleMode1ConfigSubmit` | src/App.tsx:37-40 | a submitted configuration is held and the run screen is shown; sessions are untouched |
| `App.Mode1Session` | src/App.tsx:49-62 | a timed session keeps the id, config, rounds and total; its start lies totalDuration before `now`; each cycle keeps number and duration, has no end time and shares the session start |
| `App.Mode2Session` | src/App.tsx:70-79 | a manual session keeps the laps unchanged, has one round per lap and an empty config, and its start lies totalDuration before `now` |
| `App.SaveAndShow` | src/App.tsx:64-66 | a successful save appends the session, makes it current and switches to the given view; a failed save changes nothing and signals failure |
| `App.HandleMode1Finish` | src/App.tsx:42-67 | with no held config nothing happens; otherwise exactly one timed session is saved, made current and shown on the timed results; a failed save changes nothing |
| `App.HandleMode2Finish` | src/App.tsx:69-84 | exactly one manual session is saved, made current and shown on the lap results; a failed save changes nothing |
| `App.HandleViewSession` | src/App.tsx:98-105 | viewing makes the session current and shows timed sessions on the timed results and all others on the lap results |
| `App.HandleNewTraining` | src/App.tsx:107-111 | a new training clears the current session and the config and returns to the mode selector |
| `App.Mode1RunStored` | src/App.tsx:42-67 | a timed run that kept the invariant is stored with totalRounds equal to its number of cycles, numbered 1..n, each with the configured duration |
| `App.Mode2RunStored` | src/App.tsx:69-84 | a manual run finished from the stopped screen is stored with as many rounds as laps, its current round, numbered 1..n |

## Left out

- React plumbing: `useState`, refs, `useEffect`, `setInterval` polling, the JSX rendering and text colours. Handlers are pure transitions over an explicit state, and rendering survives only as the button gating in `Mode1Training.Apply` and `Mode2Training.Press`.
- The timed mode's floating-point countdown and its resume arithmetic (src/components/Mode1Training.tsx:40-58, 161). They become the abstract `Expire` event, and resume keeps only its effect on the paused flag.
- UseTimer.Elapsed: it is the value the polling callback computes at `now`. The displayed state can lag it by one polling interval, and after a pause it keeps the last sample.
- Several `Date.now()` calls inside one handler are modelled as one clock reading. The real calls can differ by a millisecond.
- `Math.ceil` applied to the displayed seconds, `toFixed` and other float rounding. Arithmetic is exact on `real`.
- Form inputs are modelled as the numbers `Number(...)` produces. NaN is not modelled: the typed fields reach validation as ordinary numbers, and the cycle-count box distinguishes only empty, numeric and non-numeric text.
- src/utils/exportData.ts: downloads, `Date.toISOString` and number formatting. These are library calls with no logic to verify.
- Browser storage, `JSON.parse`/`stringify`, `console.error` and the initial load effect of the store. The store is the in-memory list, and a failed write is a boolean parameter.
- `generateSessionId` uses the clock and randomness. Session ids are parameters.
- `onCancel`, and the session list and session detail screens. `SessionList` is not part of this model.
- Presentation-only components: `Button`, `ModeSelector`, `DarkModeToggle`, and the charts. Only the chart data and bar widths are modelled.

=== FILE: app.dfy ===
/**
 * The application shell (src/App.tsx): which screen is shown, the
 * configuration held for a timed run, and how a finished run becomes a
 * stored session. Session ids and the clock are parameters.
 */
module App {
  import opened Wrappers
  import opened Types
  import Mode1Training
  import Mode2Training
  import LocalStorage

  datatype AppView =
    | ModeSelectorView | Mode1ConfigView | Mode1TrainingView | Mode1ResultsView
    | Mode2TrainingView | Mode2ResultsView | SessionListView | SessionDetailView

  datatype AppState = AppState(
    currentView: AppView,
    mode1Config: Option<Mode1Config>,
    currentSession: Option<TrainingSession>,
    sessions: seq<TrainingSession>)   // the store's list

  /** The result of a handler, and the store failure it raised, if any. */
  datatype Outcome = Outcome(app: AppState, error: Option<LocalStorage.StoreError>)

  function Initial(stored: seq<TrainingSession>): AppState {
    AppState(ModeSelectorView, None, None, stored)
  }

  /** `handleMode1ConfigSubmit`: keep the configuration and start the run screen. */
  function HandleMode1ConfigSubmit(app: AppState, config: Mode1Config): (r: AppState)
    ensures r.mode1Config == Some(config) && r.currentView == Mode1TrainingView
    ensures r.sessions == app.sessions && r.currentSession == app.currentSession
  {
    app.(mode1Config := Some(config), currentView := Mode1TrainingView)
  }

  /**
   * The stored form of a timed run: the held configuration, the reported
   * rounds and duration, and each reported cycle with its number and
   * duration, no end time and the run's computed start time.
   */
  function Mode1Session(id: string, config: Mode1Config, data: Mode1Training.FinishData, now: Millis): (s: TrainingSession)
    ensures s.id == id && s.mode == Mode1 && s.config == Mode1Settings(config)
    ensures s.totalRounds == data.totalRounds && s.totalDuration == Some(data.totalDuration)
    ensures s.endTime == Some(now as real)
    ensures s.startTime + data.totalDuration * 1000.0 == now as real
    ensures |s.cycles| == |data.cycles|
    ensures forall i :: 0 <= i < |s.cycles| ==>
      && s.cycles[i].cycleNumber == data.cycles[i].cycleNumber
      && s.cycles[i].duration == Some(data.cycles[i].duration)
      && s.cycles[i].endTime.None?
      && s.cycles[i].startTime == s.startTime
  {
    var start := now as real - data.totalDuration * 1000.0;
    TrainingSession(
      id, Mode1, Mode1Settings(config), start, Some(now as real), Some(data.totalDuration),
      seq(|data.cycles|, i requires 0 <= i < |data.cycles| =>
        CycleRecord(data.cycles[i].cycleNumber, start, None, Some(data.cycles[i].duration))),
      data.totalRounds)
  }

  /** The stored form of a manual run: its laps unchanged, one round per lap, no config. */
  function Mode2Session(id: string, data: Mode2Training.FinishData, now: Millis): (s: TrainingSession)
    ensures s.id == id && s.mode == Mode2 && s.config == EmptyConfig
    ensures s.cycles == data.cycles && s.totalRounds == |data.cycles|
    ensures s.totalDuration == Some(data.totalDuration) && s.endTime == Some(now as real)
    ensures s.startTime + data.totalDuration * 1000.0 == now as real
  {
    TrainingSession(
      id, Mode2, EmptyConfig, now as real - data.totalDuration * 1000.0, Some(now as real),
      Some(data.totalDuration), data.cycles, |data.cycles|)
  }

  /** Save, then show the session on `view`; a failed save stops the handler. */
  function SaveAndShow(app: AppState, session: TrainingSession, view: AppView, writeOk: bool): (r: Outcome)
    ensures writeOk ==> r == Outcome(
      app.(sessions := app.sessions + [session], currentSession := Some(session), currentView := view), None)
    ensures !writeOk ==> r.app == app && r.error.Some?
  {
    var u := LocalStorage.SaveSession(app.sessions, session, writeOk);
    if u.error.Some? then Outcome(app, u.error)
    else Outcome(app.(sessions := u.sessions, currentSession := Some(session), currentView := view), None)
  }

  /**
   * `handleMode1Finish`: without a held configuration nothing happens;
   * otherwise exactly one session is saved and the timed results are shown.
   */
  function HandleMode1Finish(
    app: AppState, data: Mode1Training.FinishData, id: string, now: Millis, writeOk: bool): (r: Outcome)
    ensures app.mode1Config.None? ==> r == Outcome(app, None)
    ensures app.mode1Config.Some? && writeOk ==>
      var s := Mode1Session(id, app.mode1Config.value, data, now);
      && r.error.None?
      && r.app.sessions == app.sessions + [s]
      && r.app.currentSession == Some(s)
      && r.app.currentView == Mode1ResultsView
    ensures !writeOk ==> r.app == app
  {
    match app.mode1Config
    case None => Outcome(app, None)
    case Some(config) => SaveAndShow(app, Mode1Session(id, config, data, now), Mode1ResultsView, writeOk)
  }

  /** `handleMode2Finish`: exactly one session is saved and the lap results are shown. */
  function HandleMode2Finish(
    app: AppState, data: Mode2Training.FinishData, id: string, now: Millis, writeOk: bool): (r: Outcome)
    ensures writeOk ==>
      var s := Mode2Session(id, data, now);
      && r.error.None?
      && r.app.sessions == app.sessions + [s]
      && r.app.currentSession == Some(s)
      && r.app.currentView == Mode2ResultsView
    ensures !writeOk ==> r.app == app && r.error.Some?
  {
    SaveAndShow(app, Mode2Session(id, data, now), Mode2ResultsView, writeOk)
  }

  /** `handleViewSession`: timed sessions open the timed results, all others the lap results. */
  function HandleViewSession(app: AppState, session: TrainingSession): (r: AppState)
    ensures r.currentSession == Some(session)
    ensures r.currentView == (if session.mode == Mode1 then Mode1ResultsView else Mode2ResultsView)
    ensures r.sessions == app.sessions && r.mode1Config == app.mode1Config
  {
    app.(currentSession := Some(session),
         currentView := if session.mode == Mode1 then Mode1ResultsView else Mode2ResultsView)
  }

  /** `handleNewTraining`: back to the mode selector with nothing held. */
  function HandleNewTraining(app: AppState): (r: AppState)
    ensures r == Initial(app.sessions)
  {
    app.(currentSession := None, mode1Config := None, currentView := ModeSelectorView)
  }

  /**
   * A timed run saved through the shell keeps what the run reported: the
   * stored cycles are numbered 1..totalRounds, each with the configured
   * cycle duration, when the run kept the automatic-mode invariant.
   */
  lemma Mode1RunStored(
    app: AppState, config: Mode1Config, s: Mode1Training.Mode1State,
    e: Mode1Training.Event, id: string, now: Millis)
    requires app.mode1Config == Some(config)
    requires Mode1Training.Inv(config, s)
    requires Mode1Training.Apply(config, s, e, now).finished.Some?
    ensures var data := Mode1Training.Apply(config, s, e, now).finished.value;
      var r := HandleMode1Finish(app, data, id, now, true);
      && |r.app.sessions| == |app.sessions| + 1
      && var stored := r.app.sessions[|app.sessions|];
      && stored.totalRounds == |stored.cycles|
      && (forall i :: 0 <= i < |stored.cycles| ==>
            stored.cycles[i].cycleNumber == i + 1 &&
            stored.cycles[i].duration == Some(config.cycleDuration))
  {
    Mode1Training.FinishReport(config, s, e, now);
  }

  /**
   * A manual run saved through the shell stores the laps it reported with
   * as many rounds as laps, all numbered 1..n in order.
   */
  lemma Mode2RunStored(
    app: AppState, s: Mode2Training.Mode2State, clock: Millis, id: string, now: Millis)
    requires Mode2Training.Inv(s, clock) && clock <= now
    requires Mode2Training.Press(s, Mode2Training.FinishButton, now).finished.Some?
    ensures var data := Mode2Training.Press(s, Mode2Training.FinishButton, now).finished.value;
      var r := HandleMode2Finish(app, data, id, now, true);
      && var stored := r.app.sessions[|app.sessions|];
      && stored.totalRounds == |stored.cycles| == s.currentRound
      && (forall i :: 0 <= i < |stored.cycles| ==> stored.cycles[i].cycleNumber == i + 1)
  {
    Mode2Training.FinishSealsOpenLap(s, clock, now);
  }
}

=== FILE: config_form.dfy ===
/**
 * The automatic-mode configuration form (src/components/Mode1Config.tsx):
 * field validation, the submit gate, and how the number-of-cycles input and
 * radio buttons normalise what the user types.
 */
module ConfigForm {
  import opened Wrappers
  import opened Types

  datatype Field = CycleDurationField | RestTimeField | NumberOfCyclesField | BufferTimeField

  const CycleDurationMessage := "Cycle duration must be greater than 0"
  const RestTimeMessage := "Rest time cannot be negative"
  const NumberOfCyclesMessage := "Number of cycles must be greater than 0"
  const BufferTimeMessage := "Buffer time cannot be negative"

  /** What a configuration must satisfy before a run may start. */
  predicate IsValid(c: Mode1Config) {
    && c.cycleDuration > 0.0
    && c.restTime >= 0.0
    && (c.numberOfCycles.Unlimited? || c.numberOfCycles.n > 0.0)
    && c.bufferTime >= 0.0
  }

  /** The error map `validate` builds: one entry per violated field. */
  function Errors(c: Mode1Config): (errors: map<Field, string>)
    ensures CycleDurationField in errors <==> c.cycleDuration <= 0.0
    ensures RestTimeField in errors <==> c.restTime < 0.0
    ensures NumberOfCyclesField in errors <==> c.numberOfCycles.Limited? && c.numberOfCycles.n <= 0.0
    ensures BufferTimeField in errors <==> c.bufferTime < 0.0
    ensures CycleDurationField in errors ==> errors[CycleDurationField] == CycleDurationMessage
    ensures RestTimeField in errors ==> errors[RestTimeField] == RestTimeMessage
    ensures NumberOfCyclesField in errors ==> errors[NumberOfCyclesField] == NumberOfCyclesMessage
    ensures BufferTimeField in errors ==> errors[BufferTimeField] == BufferTimeMessage
  {
    var e0: map<Field, string> := map[];
    var e1 := if c.cycleDuration <= 0.0 then e0[CycleDurationField := CycleDurationMessage] else e0;
    var e2 := if c.restTime < 0.0 then e1[RestTimeField := RestTimeMessage] else e1;
    var e3 := if c.numberOfCycles != Unlimited && c.numberOfCycles.n <= 0.0
      then e2[NumberOfCyclesField := NumberOfCyclesMessage] else e2;
    if c.bufferTime < 0.0 then e3[BufferTimeField := BufferTimeMessage] else e3
  }

  /** The form's state: the four inputs and the errors last shown. */
  datatype FormState = FormState(values: Mode1Config, errors: map<Field, string>)

  const Defaults := Mode1Config(60.0, 30.0, Unlimited, 5.0)

  function InitialForm(): FormState {
    FormState(Defaults, map[])
  }

  /** `validate`: stores the error map and reports whether it is empty. */
  function Validate(f: FormState): (r: (FormState, bool))
    ensures r.1 <==> IsValid(f.values)
    ensures r.0.values == f.values
    ensures r.0.errors.Keys == Errors(f.values).Keys
    ensures r.0.errors == Errors(f.values)
  {
    var errors := Errors(f.values);
    (f.(errors := errors), |errors.Keys| == 0)
  }

  datatype SubmitResult = SubmitResult(form: FormState, submitted: Option<Mode1Config>)

  /**
   * `handleSubmit`: the configuration is handed on only when it validates,
   * and then with the four values exactly as entered.
   */
  function HandleSubmit(f: FormState): (r: SubmitResult)
    ensures r.submitted.Some? <==> IsValid(f.values)
    ensures r.submitted.Some? ==> r.submitted.value == f.values
    ensures r.form.values == f.values
    ensures forall k :: k in r.form.errors <==> k in Errors(f.values)
    ensures r.form.errors == Errors(f.values)
  {
    var (form, ok) := Validate(f);
    SubmitResult(form, if ok then Some(f.values) else None)
  }

  /** The untouched form submits 60 / 30 / unlimited / 5. */
  lemma DefaultsSubmit()
    ensures HandleSubmit(InitialForm()).submitted == Some(Mode1Config(60.0, 30.0, Unlimited, 5.0))
    ensures HandleSubmit(InitialForm()).form.errors == map[]
  {
  }

  /** A zero cycle duration submits nothing and flags only that field. */
  lemma ZeroCycleDurationRejected(f: FormState)
    requires f.values == Defaults.(cycleDuration := 0.0)
    ensures HandleSubmit(f).submitted.None?
    ensures HandleSubmit(f).form.errors.Keys == {CycleDurationField}
  {
    var errors := HandleSubmit(f).form.errors;
    assert CycleDurationField in errors;
    assert forall k :: k in errors ==> k == CycleDurationField;
  }

  /** What the number input's change event carries after `Number(...)`. */
  datatype NumberInput = EmptyText | Numeric(v: real) | NotANumber

  /**
   * The number-of-cycles input: an empty box means 1, text that is not a
   * number leaves the value alone, and a number is taken as typed.
   */
  function OnCyclesInput(current: CycleLimit, input: NumberInput): (r: CycleLimit)
    ensures input.EmptyText? ==> r == Limited(1.0)
    ensures input.NotANumber? ==> r == current
    ensures input.Numeric? ==> r == Limited(input.v)
  {
    match input
    case EmptyText => Limited(1.0)
    case Numeric(v) => Limited(v)
    case NotANumber => current
  }

  /**
   * A click on the fixed-count radio button. The button is checked whenever
   * the count is a number, and its change event fires only when it becomes
   * checked, so it resets the count to 1 only when leaving "unlimited".
   */
  function OnFixedRadio(current: CycleLimit): (r: CycleLimit)
    ensures current.Limited? ==> r == current
    ensures current.Unlimited? ==> r == Limited(1.0)
  {
    if current.Unlimited? then Limited(1.0) else current
  }

  /** A click on the unlimited radio button: the count becomes unlimited. */
  function OnUnlimitedRadio(current: CycleLimit): (r: CycleLimit)
    ensures r.Unlimited?
  {
    Unlimited
  }

  /**
   * The unlimited radio button always leaves a count that passes
   * validation, and the fixed one does when it switches away from
   * "unlimited"; clicking the fixed one while a count is showing keeps that
   * count's verdict. In the box, an emptied box passes, a typed number
   * fails exactly when it is not positive, and other text keeps the verdict.
   */
  lemma CyclesInputValidity(c: Mode1Config, input: NumberInput)
    ensures c.numberOfCycles.Unlimited? ==>
      NumberOfCyclesField !in Errors(c.(numberOfCycles := OnFixedRadio(c.numberOfCycles)))
    ensures c.numberOfCycles.Limited? ==>
      ((NumberOfCyclesField in Errors(c.(numberOfCycles := OnFixedRadio(c.numberOfCycles))))
        <==> (NumberOfCyclesField in Errors(c)))
    ensures NumberOfCyclesField !in Errors(c.(numberOfCycles := OnUnlimitedRadio(c.numberOfCycles)))
    ensures var c' := c.(numberOfCycles := OnCyclesInput(c.numberOfCycles, input));
      NumberOfCyclesField in Errors(c') <==>
        (if input.Numeric? then input.v <= 0.0 else NumberOfCyclesField in Errors(c) && input.NotANumber?)
  {
  }
}

=== FILE: digits.dfy ===
/**
 * Decimal rendering of integers as JavaScript's `Number.prototype.toString`
 * does it for integral values, `String.prototype.padStart`, and the decimal
 * parser used to state that the formatters lose nothing.
 */
module Digits {

  predicate IsDigit(c: char) {
    '0' <= c <= '9'
  }

  predicate AllDigits(s: string) {
    forall i :: 0 <= i < |s| ==> IsDigit(s[i])
  }

  function DigitChar(d: nat): (c: char)
    requires d < 10
    ensures IsDigit(c)
  {
    "0123456789"[d]
  }

  function DigitValue(c: char): (d: nat)
    requires IsDigit(c)
    ensures d < 10
  {
    (c as int - '0' as int) as nat
  }

  lemma DigitRoundTrip(d: nat)
    requires d < 10
    ensures DigitValue(DigitChar(d)) == d
  {
  }

  /** Decimal digits of `n`, most significant first, without leading zeros. */
  function NatToString(n: nat): (s: string)
    ensures |s| >= 1 && AllDigits(s)
    ensures |s| == 1 <==> n < 10
    ensures n < 100 ==> |s| <= 2
    ensures s[0] == '0' <==> n == 0
    decreases n
  {
    if n < 10 then [DigitChar(n)] else NatToString(n / 10) + [DigitChar(n % 10)]
  }

  /** An integral JavaScript number rendered by `toString()`. */
  function IntToString(i: int): (s: string)
    ensures |s| >= 1
    ensures i >= 0 ==> AllDigits(s)
    ensures i < 0 ==> s[0] == '-' && AllDigits(s[1..])
    ensures i >= 0 ==> ParseNat(s) == i
    ensures i < 0 ==> ParseNat(s[1..]) == -i
  {
    if i < 0 then
      ParseNatToString(-i);
      assert ("-" + NatToString(-i))[1..] == NatToString(-i);
      "-" + NatToString(-i)
    else
      ParseNatToString(i);
      NatToString(i)
  }

  /** `k` copies of `c`. */
  function Repeat(c: char, k: nat): (r: string)
    ensures |r| == k
    ensures forall i :: 0 <= i < k ==> r[i] == c
  {
    if k == 0 then [] else [c] + Repeat(c, k - 1)
  }

  /** `s.padStart(width, fill)`: fill on the left up to `width`, never truncate. */
  function PadStart(s: string, width: nat, fill: char): (r: string)
    ensures |r| == if |s| >= width then |s| else width
    ensures |s| >= width ==> r == s
    ensures |s| < width ==> r == Repeat(fill, |r| - |s|) + s
    ensures forall i :: 0 <= i < |r| - |s| ==> r[i] == fill
  {
    if |s| >= width then s else Repeat(fill, width - |s|) + s
  }

  /** The padded text ends with the original text, whatever the width. */
  lemma PadStartSuffix(s: string, width: nat, fill: char)
    ensures var r := PadStart(s, width, fill);
      && |r| >= |s|
      && r[|r| - |s|..] == s
  {
    var r := PadStart(s, width, fill);
    if |s| < width {
      assert r == Repeat(fill, |r| - |s|) + s;
    }
  }

  /** The value of a string of decimal digits (leading zeros allowed). */
  function ParseNat(s: string): nat
    requires AllDigits(s)
    decreases |s|
  {
    if |s| == 0 then 0 else ParseNat(s[..|s| - 1]) * 10 + DigitValue(s[|s| - 1])
  }

  /** Parsing the rendering of a number gives the number back. */
  lemma {:induction false} ParseNatToString(n: nat)
    ensures ParseNat(NatToString(n)) == n
    decreases n
  {
    var s := NatToString(n);
    if n < 10 {
      DigitRoundTrip(n);
    } else {
      ParseNatToString(n / 10);
      assert s[..|s| - 1] == NatToString(n / 10);
      DigitRoundTrip(n % 10);
    }
  }

  /** A leading zero does not change the parsed value. */
  lemma {:induction false} ParseLeadingZero(s: string)
    requires AllDigits(s)
    ensures AllDigits("0" + s)
    ensures ParseNat("0" + s) == ParseNat(s)
    decreases |s|
  {
    var z := "0" + s;
    if |s| > 0 {
      assert z[..|z| - 1] == "0" + s[..|s| - 1];
      ParseLeadingZero(s[..|s| - 1]);
    }
  }

  /** Any number of leading zeros leaves the parsed value alone. */
  lemma {:induction false} ParseLeadingZeros(k: nat, s: string)
    requires AllDigits(s)
    ensures AllDigits(Repeat('0', k) + s)
    ensures ParseNat(Repeat('0', k) + s) == ParseNat(s)
    decreases k
  {
    if k > 0 {
      var rest := Repeat('0', k - 1) + s;
      ParseLeadingZeros(k - 1, s);
      ParseLeadingZero(rest);
      assert Repeat('0', k) == "0" + Repeat('0', k - 1);
      assert Repeat('0', k) + s == "0" + rest;
    } else {
      assert Repeat('0', k) + s == s;
    }
  }

  /** Zero padding does not change the parsed value. */
  lemma ParsePadded(s: string, width: nat)
    requires AllDigits(s)
    ensures AllDigits(PadStart(s, width, '0'))
    ensures ParseNat(PadStart(s, width, '0')) == ParseNat(s)
  {
    if |s| < width {
      ParseLeadingZeros(width - |s|, s);
    }
  }

  /** A digit string read back as a number after zero padding. */
  lemma PaddedNatRoundTrip(n: nat, width: nat)
    ensures AllDigits(PadStart(NatToString(n), width, '0'))
    ensures ParseNat(PadStart(NatToString(n), width, '0')) == n
  {
    ParsePadded(NatToString(n), width);
    ParseNatToString(n);
  }
}

=== FILE: jsmath.dfy ===
/**
 * The two JavaScript number operations the formatters use on seconds:
 * `Math.floor` and the remainder operator `%`, which truncates toward zero
 * (so its result takes the sign of the dividend), unlike Dafny's `%`.
 */
module JsMath {

  function Floor(x: real): int {
    x.Floor
  }

  /** Truncation toward zero. */
  function Trunc(x: real): (t: int)
    ensures x >= 0.0 ==> t as real <= x < t as real + 1.0
    ensures x < 0.0 ==> t as real - 1.0 < x <= t as real
  {
    if x >= 0.0 then x.Floor else -((-x).Floor)
  }

  /** `x % m` on JavaScript numbers for a positive divisor. */
  function Rem(x: real, m: real): (r: real)
    requires m > 0.0
    ensures x >= 0.0 ==> 0.0 <= r < m
    ensures x < 0.0 ==> -m < r <= 0.0
    ensures ((x - r) / m).Floor as real == (x - r) / m
  {
    var t := Trunc(x / m);
    QuotientBounds(x, m, t as real);
    var r := x - m * t as real;
    WholeQuotient(x, m, t, r);
    r
  }

  /** What is left after taking `t` whole `m`s from `x` differs from `x` by a whole multiple of `m`. */
  lemma WholeQuotient(x: real, m: real, t: int, r: real)
    requires m > 0.0 && r == x - m * t as real
    ensures ((x - r) / m).Floor as real == (x - r) / m
  {
    assert x - r == m * t as real;
    assert (m * t as real) / m == t as real;
  }

  /** A truncated quotient `t` of `x / m` leaves a remainder smaller than `m`, with the sign of `x`. */
  lemma QuotientBounds(x: real, m: real, t: real)
    requires m > 0.0
    requires x >= 0.0 ==> t <= x / m < t + 1.0
    requires x < 0.0 ==> t - 1.0 < x / m <= t
    ensures x >= 0.0 ==> 0.0 <= x - m * t < m
    ensures x < 0.0 ==> -m < x - m * t <= 0.0
  {
    if x >= 0.0 {
      var d := x / m - t;
      assert x - m * t == m * d;
      UnitScale(m, d);
    } else {
      NegativeRemainder(x, m, t);
    }
  }

  /** The negative-dividend half of `QuotientBounds`. */
  lemma NegativeRemainder(x: real, m: real, t: real)
    requires m > 0.0 && x < 0.0
    requires t - 1.0 < x / m <= t
    ensures 0.0 < x - m * t + m
    ensures x - m * t <= 0.0
  {
    var d := x / m - t;
    assert x - m * t == m * d;
    UnitScale(m, -d);
    assert m * -d == -(m * d);
    assert -(m * d) < m;
    assert m * d > -m;
  }

  /** A fraction below one of a positive `m` stays below `m`. */
  lemma UnitScale(m: real, d: real)
    requires m > 0.0 && 0.0 <= d < 1.0
    ensures 0.0 <= m * d < m
  {
    assert m * d < m * 1.0;
    assert m * 1.0 == m;
  }

  /**
   * For a non-negative number of seconds, `floor(s / 60)` minutes and
   * `floor(s % 60)` seconds split `floor(s)` exactly, with the seconds in
   * 0..59.
   */
  lemma MinutesSeconds(s: real)
    requires s >= 0.0
    ensures Floor(s / 60.0) >= 0
    ensures 0 <= Floor(Rem(s, 60.0)) <= 59
    ensures Floor(s / 60.0) * 60 + Floor(Rem(s, 60.0)) == Floor(s)
  {
    var m := (s / 60.0).Floor;
    assert Rem(s, 60.0) == s - (60 * m) as real;
    assert (s - (60 * m) as real).Floor == s.Floor - 60 * m;
  }
}

=== FILE: local_storage.dfy ===
/**
 * The session store (src/hooks/useLocalStorage.ts) as operations on the
 * in-memory list of sessions. Whether writing the backing storage succeeds
 * is a parameter; when it fails the list stays as it was and the failure is
 * reported, as the hook does by throwing after the failed write.
 */
module LocalStorage {
  import opened Wrappers
  import opened Types

  datatype StoreError = SaveFailed | DeleteFailed | ClearFailed

  /** The list after an operation, and the failure it signalled, if any. */
  datatype Update = Update(sessions: seq<TrainingSession>, error: Option<StoreError>)

  /** `sessions.filter((s) => s.id !== id)`. */
  function Without(sessions: seq<TrainingSession>, id: string): (r: seq<TrainingSession>)
    ensures |r| <= |sessions|
    ensures forall s :: s in r <==> s in sessions && s.id != id
  {
    if |sessions| == 0 then []
    else if sessions[0].id != id then [sessions[0]] + Without(sessions[1..], id)
    else Without(sessions[1..], id)
  }

  /** `saveSession`: appends at the end when the write succeeds. */
  function SaveSession(sessions: seq<TrainingSession>, session: TrainingSession, writeOk: bool): (u: Update)
    ensures writeOk ==> u.error.None? && u.sessions == sessions + [session]
    ensures !writeOk ==> u.error == Some(SaveFailed) && u.sessions == sessions
  {
    if writeOk then Update(sessions + [session], None) else Update(sessions, Some(SaveFailed))
  }

  /** `getSession`: the first session with the id, if there is one. */
  function GetSession(sessions: seq<TrainingSession>, id: string): (r: Option<TrainingSession>)
    ensures r.None? <==> forall s :: s in sessions ==> s.id != id
    ensures r.Some? ==> r.value.id == id
    ensures r.Some? ==>
      exists i :: 0 <= i < |sessions| && sessions[i] == r.value && (forall j :: 0 <= j < i ==> sessions[j].id != id)
  {
    if |sessions| == 0 then None
    else if sessions[0].id == id then Some(sessions[0])
    else
      var r := GetSession(sessions[1..], id);
      assert forall s :: s in sessions ==> s == sessions[0] || s in sessions[1..];
      if r.Some? then
        var i :|
          0 <= i < |sessions[1..]| && sessions[1..][i] == r.value && (forall j :: 0 <= j < i ==> sessions[1..][j].id != id);
        assert sessions[i + 1] == r.value;
        assert forall j :: 1 <= j < i + 1 ==> sessions[j] == sessions[1..][j - 1];
        r
      else r
  }

  /** `getAllSessions`: the current list itself. */
  function GetAllSessions(sessions: seq<TrainingSession>): (r: seq<TrainingSession>)
    ensures r == sessions
  {
    sessions
  }

  /** `deleteSession`: drops every session with the id when the write succeeds. */
  function DeleteSession(sessions: seq<TrainingSession>, id: string, writeOk: bool): (u: Update)
    ensures writeOk ==> u.error.None? && u.sessions == Without(sessions, id)
    ensures !writeOk ==> u.error == Some(DeleteFailed) && u.sessions == sessions
  {
    if writeOk then Update(Without(sessions, id), None) else Update(sessions, Some(DeleteFailed))
  }

  /** `clearAllSessions`: empties the list when removing the storage key succeeds. */
  function ClearAllSessions(sessions: seq<TrainingSession>, writeOk: bool): (u: Update)
    ensures writeOk ==> u.error.None? && u.sessions == []
    ensures !writeOk ==> u.error == Some(ClearFailed) && u.sessions == sessions
  {
    if writeOk then Update([], None) else Update(sessions, Some(ClearFailed))
  }

  /**
   * Deleting keeps the remaining sessions in their original relative order:
   * it distributes over concatenation, and a single session survives exactly
   * when its id differs.
   */
  lemma {:induction false} WithoutAppend(a: seq<TrainingSession>, b: seq<TrainingSession>, id: string)
    ensures Without(a + b, id) == Without(a, id) + Without(b, id)
    decreases |a|
  {
    if |a| == 0 {
      assert a + b == b;
    } else {
      assert (a + b)[1..] == a[1..] + b;
      WithoutAppend(a[1..], b, id);
    }
  }

  lemma WithoutSingle(s: TrainingSession, id: string)
    ensures Without([s], id) == if s.id == id then [] else [s]
  {
  }

  /** Deleting an id that is absent leaves the list exactly as it was. */
  lemma {:induction false} WithoutAbsent(sessions: seq<TrainingSession>, id: string)
    requires forall s :: s in sessions ==> s.id != id
    ensures Without(sessions, id) == sessions
    decreases |sessions|
  {
    if |sessions| > 0 {
      assert forall s :: s in sessions[1..] ==> s in sessions;
      WithoutAbsent(sessions[1..], id);
      assert [sessions[0]] + sessions[1..] == sessions;
    }
  }

  /** Deleting twice is deleting once. */
  lemma DeleteIdempotent(sessions: seq<TrainingSession>, id: string)
    ensures var once := DeleteSession(sessions, id, true).sessions;
      DeleteSession(once, id, true).sessions == once
    ensures GetSession(DeleteSession(sessions, id, true).sessions, id).None?
  {
    WithoutAbsent(Without(sessions, id), id);
  }

  /**
   * After a successful save, looking up the new session's id finds the
   * earlier session with that id if there was one, and the new one
   * otherwise; the earlier sessions are untouched.
   */
  lemma {:induction false} SaveThenGet(sessions: seq<TrainingSession>, session: TrainingSession)
    ensures var after := SaveSession(sessions, session, true).sessions;
      && after[..|sessions|] == sessions
      && GetSession(after, session.id) ==
           if GetSession(sessions, session.id).Some? then GetSession(sessions, session.id) else Some(session)
    decreases |sessions|
  {
    var after := sessions + [session];
    assert after[..|sessions|] == sessions;
    if |sessions| > 0 && sessions[0].id != session.id {
      assert after[1..] == sessions[1..] + [session];
      SaveThenGet(sessions[1..], session);
    }
  }

  /** A failed write changes nothing, whatever the operation. */
  lemma FailedWriteKeepsList(sessions: seq<TrainingSession>, session: TrainingSession, id: string)
    ensures SaveSession(sessions, session, false).sessions == GetAllSessions(sessions)
    ensures DeleteSession(sessions, id, false).sessions == GetAllSessions(sessions)
    ensures ClearAllSessions(sessions, false).sessions == GetAllSessions(sessions)
    ensures SaveSession(sessions, session, false).error.Some?
    ensures DeleteSession(sessions, id, false).error.Some?
    ensures ClearAllSessions(sessions, false).error.Some?
  {
  }
}

=== FILE: mode1_results.dfy ===
/**
 * The automatic-mode summary screen (src/components/Mode1Results.tsx): the
 * rounds completed, and the cycle duration and total training time rendered
 * as "<minutes>m <seconds>s" without zero padding.
 */
module Mode1Results {
  import opened Wrappers
  import opened Digits
  import JsMath

  /** `formatTime`: "<minutes>m <seconds>s", ending in the unit letter. */
  function FormatTime(seconds: real): (r: string)
    ensures |r| >= 5 && r[|r| - 1] == 's'
  {
    var mins := JsMath.Floor(seconds / 60.0);
    var secs := JsMath.Floor(JsMath.Rem(seconds, 60.0));
    IntToString(mins) + "m " + IntToString(secs) + "s"
  }

  /** Position of the first `c` in `s`, or `|s|` when there is none. */
  function IndexOf(s: string, c: char): (k: nat)
    ensures k <= |s|
    ensures k < |s| ==> s[k] == c
    ensures forall i :: 0 <= i < k ==> s[i] != c
  {
    if |s| == 0 then 0 else if s[0] == c then 0 else 1 + IndexOf(s[1..], c)
  }

  /** Reads "<m>m <s>s" back as a number of whole seconds. */
  function ParseMinSec(r: string): Option<int> {
    var k := IndexOf(r, 'm');
    if k + 3 <= |r| && r[k + 1] == ' ' && r[|r| - 1] == 's'
       && AllDigits(r[..k]) && AllDigits(r[k + 2..|r| - 1]) then
      Some(ParseNat(r[..k]) * 60 + ParseNat(r[k + 2..|r| - 1]))
    else
      None
  }

  lemma Layout(m: string, s: string)
    requires AllDigits(m) && AllDigits(s)
    ensures var r := m + "m " + s + "s";
      && IndexOf(r, 'm') == |m|
      && r[..|m|] == m
      && r[|m| + 1] == ' '
      && r[|m| + 2..|r| - 1] == s
      && r[|r| - 1] == 's'
  {
    var r := m + "m " + s + "s";
    assert r[|m|] == 'm';
    assert forall i :: 0 <= i < |m| ==> r[i] == m[i];
    assert r[..|m|] == m;
    assert r[|m| + 2..|r| - 1] == s;
  }

  /**
   * For a non-negative input the text is the whole minutes and the seconds
   * 0..59 without padding, and reading it back gives `floor(seconds)`.
   */
  lemma ParseFormatTime(seconds: real)
    requires seconds >= 0.0
    ensures var mins := JsMath.Floor(seconds / 60.0);
      var secs := JsMath.Floor(JsMath.Rem(seconds, 60.0));
      && mins >= 0 && 0 <= secs <= 59
      && FormatTime(seconds) == NatToString(mins) + "m " + NatToString(secs) + "s"
    ensures ParseMinSec(FormatTime(seconds)) == Some(seconds.Floor)
  {
    var mins := JsMath.Floor(seconds / 60.0);
    var secs := JsMath.Floor(JsMath.Rem(seconds, 60.0));
    JsMath.MinutesSeconds(seconds);
    assert IntToString(mins) == NatToString(mins) && IntToString(secs) == NatToString(secs);
    assert FormatTime(seconds) == NatToString(mins) + "m " + NatToString(secs) + "s";
    Layout(NatToString(mins), NatToString(secs));
    ParseNatToString(mins);
    ParseNatToString(secs);
  }

  /** What the screen shows: rounds, cycle duration and total time. */
  datatype Summary = Summary(rounds: string, cycleDuration: string, totalTime: string)

  function Render(totalRounds: nat, cycleDuration: real, totalDuration: real): Summary {
    Summary(NatToString(totalRounds), FormatTime(cycleDuration), FormatTime(totalDuration))
  }

  /**
   * Both durations go through the same "Xm Ys" formatter, so each field
   * reads back as its floored input, and the rounds as the count itself.
   */
  lemma RenderReadsBack(totalRounds: nat, cycleDuration: real, totalDuration: real)
    requires cycleDuration >= 0.0 && totalDuration >= 0.0
    ensures var v := Render(totalRounds, cycleDuration, totalDuration);
      && ParseMinSec(v.cycleDuration) == Some(cycleDuration.Floor)
      && ParseMinSec(v.totalTime) == Some(totalDuration.Floor)
      && AllDigits(v.rounds) && ParseNat(v.rounds) == totalRounds
  {
    ParseNatToString(totalRounds);
    ParseFormatTime(cycleDuration);
    ParseFormatTime(totalDuration);
  }

  /** 125 seconds read "2m 5s"; minutes are not padded. */
  lemma Example()
    ensures FormatTime(125.0) == "2m 5s"
    ensures FormatTime(0.0) == "0m 0s"
  {
    assert JsMath.Floor(125.0 / 60.0) == 2 && JsMath.Floor(JsMath.Rem(125.0, 60.0)) == 5;
    assert JsMath.Floor(0.0 / 60.0) == 0 && JsMath.Floor(JsMath.Rem(0.0, 60.0)) == 0;
  }
}

=== FILE: mode1_training.dfy ===
/**
 * The automatic (timed) training mode (src/components/Mode1Training.tsx).
 *
 * A run goes idle -> buffer? -> cycle <-> rest -> finished. The polling
 * countdown is abstracted to an `Expire` event meaning "the active phase's
 * remaining time reached zero"; handlers are pure transitions over an
 * explicit state, with the clock as the parameter `now`. The machine keeps
 * an append-only list of cycle entries (the component's `cyclesRef`).
 */
module Mode1Training {
  import opened Wrappers
  import opened Types

  /** One entry of `cyclesRef`. */
  datatype CycleEntry = CycleEntry(cycleNumber: int, duration: Seconds, startTime: Millis)

  datatype Mode1State = Mode1State(
    phase: Mode1TrainingState,
    currentRound: int,
    isPaused: bool,
    cycles: seq<CycleEntry>,
    totalStart: Option<Millis>)   // totalStartTimeRef

  /** What `onFinish` receives. */
  datatype CycleSummary = CycleSummary(cycleNumber: int, duration: Seconds)
  datatype FinishData = FinishData(totalRounds: int, totalDuration: Seconds, cycles: seq<CycleSummary>)

  /** A transition's new state, and the data reported when it finished the run. */
  datatype Step = Step(state: Mode1State, finished: Option<FinishData>)

  function Initial(): Mode1State {
    Mode1State(Idle, 0, false, [], None)
  }

  /** Buffer, cycle and rest: the phases with Pause/Resume and Finish buttons. */
  predicate Active(p: Mode1TrainingState) {
    p.Buffer? || p.Cycle? || p.Rest?
  }

  /** Whether round `next` may start: unlimited, or `next <= numberOfCycles`. */
  predicate RoundPermitted(cfg: Mode1Config, next: int) {
    cfg.numberOfCycles.Unlimited? || next as real <= cfg.numberOfCycles.n
  }

  /** Sets the last entry's duration (`cyclesRef.current[cycleIndex].duration = ...`). */
  function SealLast(cycles: seq<CycleEntry>, d: Seconds): (r: seq<CycleEntry>)
    ensures |r| == |cycles|
    ensures forall i :: 0 <= i < |cycles| - 1 ==> r[i] == cycles[i]
    ensures |cycles| > 0 ==> r[|r| - 1] == cycles[|cycles| - 1].(duration := d)
  {
    if |cycles| == 0 then cycles
    else cycles[|cycles| - 1 := cycles[|cycles| - 1].(duration := d)]
  }

  function Summaries(cycles: seq<CycleEntry>): (r: seq<CycleSummary>)
    ensures |r| == |cycles|
    ensures forall i :: 0 <= i < |r| ==>
      r[i] == CycleSummary(cycles[i].cycleNumber, cycles[i].duration)
  {
    seq(|cycles|, i requires 0 <= i < |cycles| => CycleSummary(cycles[i].cycleNumber, cycles[i].duration))
  }

  /**
   * `startTraining`: with a buffer the run waits in the buffer phase (the
   * round counter is not touched); otherwise round 1 opens at once.
   */
  function StartTraining(cfg: Mode1Config, s: Mode1State, now: Millis): (r: Mode1State)
    ensures r.totalStart == Some(now) && r.isPaused == s.isPaused
    ensures cfg.bufferTime > 0.0 ==>
      r.phase == Buffer && r.currentRound == s.currentRound && r.cycles == s.cycles
    ensures cfg.bufferTime <= 0.0 ==>
      && r.phase == Cycle && r.currentRound == 1
      && r.cycles == s.cycles + [CycleEntry(1, cfg.cycleDuration, now)]
  {
    if cfg.bufferTime > 0.0 then
      s.(phase := Buffer, totalStart := Some(now))
    else
      s.(phase := Cycle, currentRound := 1,
         cycles := s.cycles + [CycleEntry(1, cfg.cycleDuration, now)],
         totalStart := Some(now))
  }

  /**
   * `finishTraining`: enters the finished phase and reports the round
   * reached, the wall time since the run started (0 if it never did) and
   * the (cycle number, duration) list in order.
   */
  function FinishTraining(s: Mode1State, now: Millis): (r: Step)
    ensures r.state == s.(phase := Finished)
    ensures r.finished.Some?
    ensures r.finished.value.totalRounds == s.currentRound
    ensures r.finished.value.cycles == Summaries(s.cycles)
    ensures s.totalStart.None? ==> r.finished.value.totalDuration == 0.0
    ensures s.totalStart.Some? ==> r.finished.value.totalDuration == SecondsBetween(s.totalStart.value, now)
    ensures s.totalStart.Some? && s.totalStart.value <= now ==> r.finished.value.totalDuration >= 0.0
  {
    var total := match s.totalStart
      case Some(t) => SecondsBetween(t, now)
      case None => 0.0;
    Step(s.(phase := Finished), Some(FinishData(s.currentRound, total, Summaries(s.cycles))))
  }

  /** Opens round `next`: the state the component sets when a cycle begins. */
  function OpenCycle(cfg: Mode1Config, s: Mode1State, next: int, now: Millis): Mode1State {
    s.(phase := Cycle, currentRound := next,
       cycles := s.cycles + [CycleEntry(next, cfg.cycleDuration, now)])
  }

  /**
   * `handleStateTransition`, run when the active countdown reaches zero.
   * Paused runs and the idle and finished phases do not move.
   */
  function HandleStateTransition(cfg: Mode1Config, s: Mode1State, now: Millis): (r: Step)
    ensures s.isPaused || !Active(s.phase) ==> r == Step(s, None)
    ensures r.state.isPaused == s.isPaused && r.state.totalStart == s.totalStart
    ensures r.finished.Some? <==> r.state.phase == Finished && s.phase != Finished
  {
    if s.isPaused then Step(s, None)
    else match s.phase
      case Buffer =>
        Step(OpenCycle(cfg, s, 1, now), None)
      case Cycle =>
        var sealed := s.(cycles := SealLast(s.cycles, cfg.cycleDuration));
        if cfg.restTime > 0.0 then
          Step(sealed.(phase := Rest), None)
        else if RoundPermitted(cfg, s.currentRound + 1) then
          Step(OpenCycle(cfg, sealed, s.currentRound + 1, now), None)
        else
          FinishTraining(sealed, now)
      case Rest =>
        if RoundPermitted(cfg, s.currentRound + 1) then
          Step(OpenCycle(cfg, s, s.currentRound + 1, now), None)
        else
          FinishTraining(s, now)
      case Idle => Step(s, None)
      case Finished => Step(s, None)
  }

  /** `pauseTraining`: only outside idle and finished. */
  function PauseTraining(s: Mode1State): (r: Mode1State)
    ensures r.isPaused <==> s.isPaused || Active(s.phase)
    ensures r.(isPaused := s.isPaused) == s
  {
    if s.phase != Idle && s.phase != Finished then s.(isPaused := true) else s
  }

  /** `resumeTraining`, reduced to its effect on the paused flag. */
  function ResumeTraining(s: Mode1State): (r: Mode1State)
    ensures !r.isPaused
    ensures r.(isPaused := s.isPaused) == s
  {
    if s.isPaused then s.(isPaused := false) else s
  }

  /** What can happen to a run: a button press or the countdown expiring. */
  datatype Event = StartPressed | Expire | PausePressed | ResumePressed | FinishPressed

  /**
   * One event, with the screen's gating: Start is only rendered when idle,
   * Pause, Resume and Finish only in an active phase (Resume only while
   * paused, Pause only while not).
   */
  function Apply(cfg: Mode1Config, s: Mode1State, e: Event, now: Millis): (r: Step)
    ensures e.StartPressed? && s.phase != Idle ==> r == Step(s, None)
    ensures !e.StartPressed? && !Active(s.phase) ==> r == Step(s, None)
    ensures r.finished.Some? ==> Active(s.phase) && (e.FinishPressed? || e.Expire?)
    ensures e.FinishPressed? && Active(s.phase) ==> r.finished.Some?
  {
    match e
    case StartPressed =>
      if s.phase == Idle then Step(StartTraining(cfg, s, now), None) else Step(s, None)
    case Expire => HandleStateTransition(cfg, s, now)
    case PausePressed =>
      if Active(s.phase) && !s.isPaused then Step(PauseTraining(s), None) else Step(s, None)
    case ResumePressed =>
      if Active(s.phase) && s.isPaused then Step(ResumeTraining(s), None) else Step(s, None)
    case FinishPressed =>
      if Active(s.phase) then FinishTraining(s, now) else Step(s, None)
  }

  /** The entries are numbered 1..|cycles| in order. */
  ghost predicate Numbered(cycles: seq<CycleEntry>) {
    forall i :: 0 <= i < |cycles| ==> cycles[i].cycleNumber == i + 1
  }

  /** Every entry carries the configured cycle duration. */
  ghost predicate Nominal(cfg: Mode1Config, cycles: seq<CycleEntry>) {
    forall i :: 0 <= i < |cycles| ==> cycles[i].duration == cfg.cycleDuration
  }

  /** A numeric limit is never exceeded, except by round 1, which always opens. */
  ghost predicate WithinLimit(cfg: Mode1Config, round: int) {
    cfg.numberOfCycles.Limited? ==> round <= 1 || round as real <= cfg.numberOfCycles.n
  }

  /** The invariant every reachable state keeps. */
  ghost predicate Inv(cfg: Mode1Config, s: Mode1State) {
    && (s.phase.Idle? ==>
          s.currentRound == 0 && s.cycles == [] && !s.isPaused && s.totalStart.None?)
    && (s.phase.Buffer? ==> s.currentRound == 0 && s.cycles == [])
    && (s.phase.Cycle? || s.phase.Rest? ==> s.currentRound >= 1)
    && (!s.phase.Idle? ==> s.totalStart.Some?)
    && (s.phase.Rest? ==> cfg.restTime > 0.0)
    && |s.cycles| == s.currentRound
    && Numbered(s.cycles)
    && Nominal(cfg, s.cycles)
    && WithinLimit(cfg, s.currentRound)
  }

  lemma InitialInv(cfg: Mode1Config)
    ensures Inv(cfg, Initial())
  {
  }

  /** Sealing an entry with the nominal duration changes nothing in a valid run. */
  lemma SealIsIdentity(cfg: Mode1Config, cycles: seq<CycleEntry>)
    requires Nominal(cfg, cycles)
    ensures SealLast(cycles, cfg.cycleDuration) == cycles
  {
  }

  lemma OpenCycleInv(cfg: Mode1Config, s: Mode1State, now: Millis)
    requires Inv(cfg, s) && (s.phase.Buffer? || s.phase.Cycle? || s.phase.Rest?)
    requires RoundPermitted(cfg, s.currentRound + 1) || s.currentRound == 0
    ensures Inv(cfg, OpenCycle(cfg, s, s.currentRound + 1, now))
  {
    var r := OpenCycle(cfg, s, s.currentRound + 1, now);
    assert forall i :: 0 <= i < |s.cycles| ==> r.cycles[i] == s.cycles[i];
  }

  /** Every event keeps the invariant. */
  lemma ApplyKeepsInv(cfg: Mode1Config, s: Mode1State, e: Event, now: Millis)
    requires Inv(cfg, s)
    ensures Inv(cfg, Apply(cfg, s, e, now).state)
  {
    match e {
      case StartPressed =>
        if s.phase == Idle && cfg.bufferTime <= 0.0 {
          OpenCycleInv(cfg, s.(phase := Buffer, totalStart := Some(now)), now);
        }
      case Expire =>
        if !s.isPaused && Active(s.phase) {
          SealIsIdentity(cfg, s.cycles);
          if s.phase.Buffer? || (s.phase.Cycle? && cfg.restTime <= 0.0) || s.phase.Rest? {
            if s.phase.Buffer? || RoundPermitted(cfg, s.currentRound + 1) {
              OpenCycleInv(cfg, s, now);
            }
          }
        }
      case PausePressed =>
      case ResumePressed =>
      case FinishPressed =>
    }
  }

  function Run(cfg: Mode1Config, s: Mode1State, events: seq<(Event, Millis)>): Mode1State
    decreases |events|
  {
    if |events| == 0 then s
    else Run(cfg, Apply(cfg, s, events[0].0, events[0].1).state, events[1..])
  }

  /** Every state reachable from the idle screen satisfies the invariant. */
  lemma {:induction false} RunKeepsInv(cfg: Mode1Config, s: Mode1State, events: seq<(Event, Millis)>)
    requires Inv(cfg, s)
    ensures Inv(cfg, Run(cfg, s, events))
    decreases |events|
  {
    if |events| > 0 {
      ApplyKeepsInv(cfg, s, events[0].0, events[0].1);
      RunKeepsInv(cfg, Apply(cfg, s, events[0].0, events[0].1).state, events[1..]);
    }
  }

  /**
   * Start from idle: with a buffer the run waits at round 0 with no entries;
   * otherwise it is in cycle 1 with exactly the entry {1, cycleDuration}.
   */
  lemma StartFromIdle(cfg: Mode1Config, now: Millis)
    ensures var r := Apply(cfg, Initial(), StartPressed, now).state;
      if cfg.bufferTime > 0.0 then
        r.phase == Buffer && r.currentRound == 0 && r.cycles == []
      else
        r.phase == Cycle && r.currentRound == 1 && r.cycles == [CycleEntry(1, cfg.cycleDuration, now)]
  {
  }

  /** Buffer expiry opens cycle 1 and appends entry #1. */
  lemma BufferExpiry(cfg: Mode1Config, s: Mode1State, now: Millis)
    requires Inv(cfg, s) && s.phase == Buffer && !s.isPaused
    ensures var r := Apply(cfg, s, Expire, now);
      && r.finished.None?
      && r.state.phase == Cycle && r.state.currentRound == 1
      && r.state.cycles == [CycleEntry(1, cfg.cycleDuration, now)]
  {
  }

  /**
   * Cycle expiry with a rest time always enters rest, keeping round and
   * entries, even when the round limit has been reached.
   */
  lemma CycleExpiryEntersRest(cfg: Mode1Config, s: Mode1State, now: Millis)
    requires Inv(cfg, s) && s.phase == Cycle && !s.isPaused && cfg.restTime > 0.0
    ensures var r := Apply(cfg, s, Expire, now);
      && r.finished.None?
      && r.state == s.(phase := Rest)
  {
    SealIsIdentity(cfg, s.cycles);
  }

  /**
   * Rest expiry, and cycle expiry without a rest time, open round+1 with a
   * new entry when that round is permitted and finish the run otherwise.
   */
  lemma AdvanceOrFinish(cfg: Mode1Config, s: Mode1State, now: Millis)
    requires Inv(cfg, s) && !s.isPaused
    requires s.phase == Rest || (s.phase == Cycle && cfg.restTime <= 0.0)
    ensures var r := Apply(cfg, s, Expire, now);
      if RoundPermitted(cfg, s.currentRound + 1) then
        && r.finished.None?
        && r.state.phase == Cycle
        && r.state.currentRound == s.currentRound + 1
        && r.state.cycles == s.cycles + [CycleEntry(s.currentRound + 1, cfg.cycleDuration, now)]
      else
        && r.state.phase == Finished
        && r.state.cycles == s.cycles
        && r.finished.Some? && r.finished.value.totalRounds == s.currentRound
  {
    SealIsIdentity(cfg, s.cycles);
  }

  /** With a numeric limit of at least one, the round never passes it. */
  lemma RoundWithinLimit(cfg: Mode1Config, s: Mode1State)
    requires Inv(cfg, s)
    requires cfg.numberOfCycles.Limited? && cfg.numberOfCycles.n >= 1.0
    ensures s.currentRound as real <= cfg.numberOfCycles.n
  {
  }

  /** Without a rest time a run never enters the rest phase. */
  lemma NoRestWithoutRestTime(cfg: Mode1Config, s: Mode1State)
    requires Inv(cfg, s) && cfg.restTime <= 0.0
    ensures s.phase != Rest
  {
  }

  /** An unlimited run only ends when Finish is pressed. */
  lemma UnlimitedNeverExpiresToFinish(cfg: Mode1Config, s: Mode1State, now: Millis)
    requires Inv(cfg, s) && cfg.numberOfCycles.Unlimited?
    ensures Apply(cfg, s, Expire, now).finished.None?
  {
  }

  /**
   * While paused, expiry changes nothing; Pause is accepted only in an
   * active phase and Resume only while paused.
   */
  lemma PauseGating(cfg: Mode1Config, s: Mode1State, now: Millis)
    ensures s.isPaused ==> Apply(cfg, s, Expire, now) == Step(s, None)
    ensures Apply(cfg, s, PausePressed, now).state.isPaused <==> s.isPaused || Active(s.phase)
    ensures !s.isPaused ==> Apply(cfg, s, ResumePressed, now) == Step(s, None)
    ensures Apply(cfg, s, PausePressed, now).state.(isPaused := s.isPaused) == s
    ensures Apply(cfg, s, ResumePressed, now).state.(isPaused := s.isPaused) == s
  {
  }

  /** A finished run does not react to any event, and neither does idle to expiry. */
  lemma FinishedIsInert(cfg: Mode1Config, s: Mode1State, e: Event, now: Millis)
    requires s.phase == Finished
    ensures Apply(cfg, s, e, now) == Step(s, None)
    ensures Apply(cfg, s.(phase := Idle), Expire, now) == Step(s.(phase := Idle), None)
  {
  }

  /**
   * Whichever way a valid run finishes, the report has one entry per round
   * reached, numbered 1..totalRounds in order, each with the configured
   * cycle duration; finishing from the buffer reports zero rounds.
   */
  lemma FinishReport(cfg: Mode1Config, s: Mode1State, e: Event, now: Millis)
    requires Inv(cfg, s)
    requires Apply(cfg, s, e, now).finished.Some?
    ensures var r := Apply(cfg, s, e, now);
      var d := r.finished.value;
      && r.state.phase == Finished
      && Active(s.phase)
      && d.totalRounds == s.currentRound == |d.cycles|
      && (forall i :: 0 <= i < |d.cycles| ==>
            d.cycles[i] == CycleSummary(i + 1, cfg.cycleDuration))
      && (s.phase == Buffer ==> d.totalRounds == 0 && d.cycles == [])
  {
    SealIsIdentity(cfg, s.cycles);
  }

  /**
   * Entries are only ever appended: an event keeps the old list as a prefix
   * and adds at most one entry.
   */
  lemma CyclesAppendOnly(cfg: Mode1Config, s: Mode1State, e: Event, now: Millis)
    requires Inv(cfg, s)
    ensures var c := Apply(cfg, s, e, now).state.cycles;
      s.cycles <= c && |c| <= |s.cycles| + 1
  {
    SealIsIdentity(cfg, s.cycles);
  }

  /**
   * 60 s cycles, 30 s rest, two cycles, no buffer: cycle 1, rest, cycle 2,
   * rest, finished with two rounds of 60 s. The code enters a rest phase
   * after the last permitted cycle too and only finishes when it expires.
   */
  lemma TwoCyclesWithRest()
    ensures var cfg := Mode1Config(60.0, 30.0, Limited(2.0), 0.0);
      var s1 := Apply(cfg, Initial(), StartPressed, 0).state;
      var s2 := Apply(cfg, s1, Expire, 60000).state;
      var s3 := Apply(cfg, s2, Expire, 90000).state;
      var s4 := Apply(cfg, s3, Expire, 150000).state;
      var last := Apply(cfg, s4, Expire, 180000);
      && s1.phase == Cycle && s1.currentRound == 1
      && s2.phase == Rest && s2.currentRound == 1
      && s3.phase == Cycle && s3.currentRound == 2
      && s4.phase == Rest && s4.currentRound == 2
      && last.state.phase == Finished
      && last.finished == Some(FinishData(2, 180.0,
           [CycleSummary(1, 60.0), CycleSummary(2, 60.0)]))
  {
    var cfg := Mode1Config(60.0, 30.0, Limited(2.0), 0.0);
    var s1 := Apply(cfg, Initial(), StartPressed, 0).state;
    assert s1.cycles == [CycleEntry(1, 60.0, 0)];
    var s2 := Apply(cfg, s1, Expire, 60000).state;
    assert s2.cycles == s1.cycles;
    var s3 := Apply(cfg, s2, Expire, 90000).state;
    assert s3.cycles == [CycleEntry(1, 60.0, 0), CycleEntry(2, 60.0, 90000)];
    var s4 := Apply(cfg, s3, Expire, 150000).state;
    assert s4.cycles == s3.cycles;
    assert Summaries(s4.cycles) == [CycleSummary(1, 60.0), CycleSummary(2, 60.0)];
  }

  /**
   * 10 s cycles, no rest, unlimited, 5 s buffer: buffer first, then cycle
   * after cycle with no rest in between.
   */
  lemma UnlimitedWithBuffer()
    ensures var cfg := Mode1Config(10.0, 0.0, Unlimited, 5.0);
      var s1 := Apply(cfg, Initial(), StartPressed, 0).state;
      var s2 := Apply(cfg, s1, Expire, 5000).state;
      var s3 := Apply(cfg, s2, Expire, 15000).state;
      var s4 := Apply(cfg, s3, Expire, 25000).state;
      && s1.phase == Buffer && s1.currentRound == 0
      && s2.phase == Cycle && s2.currentRound == 1
      && s3.phase == Cycle && s3.currentRound == 2
      && s4.phase == Cycle && s4.currentRound == 3
      && |s4.cycles| == 3
  {
    var cfg := Mode1Config(10.0, 0.0, Unlimited, 5.0);
    var s1 := Apply(cfg, Initial(), StartPressed, 0).state;
    assert s1.phase == Buffer && s1.cycles == [];
    var s2 := Apply(cfg, s1, Expire, 5000).state;
    assert s2.phase == Cycle && |s2.cycles| == 1;
    var s3 := Apply(cfg, s2, Expire, 15000).state;
    assert s3.phase == Cycle && |s3.cycles| == 2;
  }
}

=== FILE: mode2_results.dfy ===
/**
 * The manual-mode summary screen (src/components/Mode2Results.tsx): the
 * chart data, the lap statistics (count, average, min, max) and the width of
 * each lap's bar relative to the longest lap.
 */
module Mode2Results {
  import opened Wrappers
  import opened Types

  datatype ChartPoint = ChartPoint(cycle: int, duration: Seconds)

  /** `chartData`: the laps with a defined duration, in order. */
  function ChartData(cycles: seq<CycleRecord>): (r: seq<ChartPoint>)
    ensures |r| <= |cycles|
  {
    if |cycles| == 0 then []
    else
      var rest := ChartData(cycles[1..]);
      match cycles[0].duration
      case Some(d) => [ChartPoint(cycles[0].cycleNumber, d)] + rest
      case None => rest
  }

  /** The defined durations, in order (`map` then `filter`). */
  function Durations(cycles: seq<CycleRecord>): (r: seq<Seconds>)
    ensures |r| <= |cycles|
  {
    if |cycles| == 0 then []
    else
      var rest := Durations(cycles[1..]);
      match cycles[0].duration
      case Some(d) => [d] + rest
      case None => rest
  }

  function Sum(ds: seq<real>): real {
    if |ds| == 0 then 0.0 else ds[0] + Sum(ds[1..])
  }

  /** `Math.min(...ds)` for a non-empty list: a lower bound that occurs in it. */
  function Min(ds: seq<real>): (m: real)
    requires |ds| > 0
    ensures forall i :: 0 <= i < |ds| ==> m <= ds[i]
    ensures exists i :: 0 <= i < |ds| && ds[i] == m
  {
    if |ds| == 1 then ds[0]
    else
      var rest := Min(ds[1..]);
      assert forall i :: 1 <= i < |ds| ==> ds[i] == ds[1..][i - 1];
      if ds[0] <= rest then ds[0] else rest
  }

  /** `Math.max(...ds)` for a non-empty list: an upper bound that occurs in it. */
  function Max(ds: seq<real>): (m: real)
    requires |ds| > 0
    ensures forall i :: 0 <= i < |ds| ==> ds[i] <= m
    ensures exists i :: 0 <= i < |ds| && ds[i] == m
  {
    if |ds| == 1 then ds[0]
    else
      var rest := Max(ds[1..]);
      assert forall i :: 1 <= i < |ds| ==> ds[i] == ds[1..][i - 1];
      if ds[0] >= rest then ds[0] else rest
  }

  datatype Statistics = Statistics(total: int, average: real, min: real, max: real)

  function ComputeStatistics(cycles: seq<CycleRecord>): (st: Statistics)
    ensures st.total == |Durations(cycles)|
    ensures st.total == 0 ==> st == Statistics(0, 0.0, 0.0, 0.0)
    ensures st.total > 0 ==> st.min <= st.max
  {
    var ds := Durations(cycles);
    if |ds| == 0 then Statistics(0, 0.0, 0.0, 0.0)
    else Statistics(|ds|, Sum(ds) / |ds| as real, Min(ds), Max(ds))
  }

  /** `entry.duration / statistics.max * 100`, or 0 when the max is not positive. */
  function BarWidth(duration: Seconds, max: Seconds): (w: real)
    ensures max <= 0.0 ==> w == 0.0
    ensures max > 0.0 ==> w * max == duration * 100.0
  {
    if max > 0.0 then duration / max * 100.0 else 0.0
  }

  /** A record contributes to the chart exactly when its duration is defined. */
  lemma {:induction false} ChartDataAppend(a: seq<CycleRecord>, b: seq<CycleRecord>)
    ensures ChartData(a + b) == ChartData(a) + ChartData(b)
    ensures Durations(a + b) == Durations(a) + Durations(b)
    decreases |a|
  {
    if |a| > 0 {
      assert (a + b)[1..] == a[1..] + b;
      ChartDataAppend(a[1..], b);
    } else {
      assert a + b == b;
    }
  }

  /**
   * The chart lists the defined durations one to one, in input order, each
   * tagged with its record's cycle number.
   */
  lemma {:induction false} ChartMatchesDurations(cycles: seq<CycleRecord>)
    ensures |ChartData(cycles)| == |Durations(cycles)|
    ensures forall i :: 0 <= i < |ChartData(cycles)| ==>
      ChartData(cycles)[i].duration == Durations(cycles)[i]
    ensures forall p :: p in ChartData(cycles) ==>
      exists r :: r in cycles && r.duration == Some(p.duration) && r.cycleNumber == p.cycle
    ensures forall r :: r in cycles && r.duration.Some? ==>
      ChartPoint(r.cycleNumber, r.duration.value) in ChartData(cycles)
    decreases |cycles|
  {
    if |cycles| > 0 {
      ChartMatchesDurations(cycles[1..]);
      assert forall r :: r in cycles[1..] ==> r in cycles;
      assert forall r :: r in cycles ==> r == cycles[0] || r in cycles[1..];
    }
  }

  /** The sum of a list lies between its length times its min and times its max. */
  lemma {:induction false} SumBetween(ds: seq<real>, lo: real, hi: real)
    requires forall i :: 0 <= i < |ds| ==> lo <= ds[i] <= hi
    ensures |ds| as real * lo <= Sum(ds) <= |ds| as real * hi
    decreases |ds|
  {
    if |ds| > 0 {
      SumBetween(ds[1..], lo, hi);
      assert (|ds| - 1) as real * lo + lo == |ds| as real * lo;
      assert (|ds| - 1) as real * hi + hi == |ds| as real * hi;
    }
  }

  lemma DivideLower(lo: real, s: real, n: real)
    requires n > 0.0 && n * lo <= s
    ensures lo <= s / n
  {
    assert s == (s / n) * n;
  }

  lemma DivideUpper(hi: real, s: real, n: real)
    requires n > 0.0 && s <= n * hi
    ensures s / n <= hi
  {
    assert s == (s / n) * n;
  }

  /** The mean of a non-empty list lies between any bounds of its elements. */
  lemma AverageBetween(ds: seq<real>, lo: real, hi: real)
    requires |ds| > 0
    requires forall i :: 0 <= i < |ds| ==> lo <= ds[i] <= hi
    ensures lo <= Sum(ds) / |ds| as real <= hi
  {
    var total, n := Sum(ds), |ds| as real;
    SumBetween(ds, lo, hi);
    DivideLower(lo, total, n);
    DivideUpper(hi, total, n);
  }

  /**
   * No defined durations: everything is zero. Otherwise the count is the
   * number of defined durations, min and max bound every one of them and
   * occur among them, and the average lies between min and max.
   */
  lemma StatisticsSound(cycles: seq<CycleRecord>)
    ensures var st := ComputeStatistics(cycles);
      var ds := Durations(cycles);
      && (|ds| == 0 ==> st == Statistics(0, 0.0, 0.0, 0.0))
      && (|ds| > 0 ==>
            && st.total == |ds|
            && st.average == Sum(ds) / |ds| as real
            && (forall i :: 0 <= i < |ds| ==> st.min <= ds[i] <= st.max)
            && (exists i :: 0 <= i < |ds| && ds[i] == st.min)
            && (exists i :: 0 <= i < |ds| && ds[i] == st.max)
            && st.min <= st.average <= st.max)
  {
    var ds := Durations(cycles);
    if |ds| > 0 {
      AverageBetween(ds, Min(ds), Max(ds));
    }
  }

  /** A duration between zero and the maximum draws a bar of 0..100 percent. */
  lemma BarWidthBounded(duration: Seconds, max: Seconds)
    requires 0.0 <= duration
    requires max > 0.0 ==> duration <= max
    ensures 0.0 <= BarWidth(duration, max) <= 100.0
    ensures max > 0.0 && duration == max ==> BarWidth(duration, max) == 100.0
  {
    if max > 0.0 {
      DivideUpper(1.0, duration, max);
      DivideLower(0.0, duration, max);
    }
  }

  /** With non-negative durations, every bar of the chart is within 0..100 percent. */
  lemma ChartBarsBounded(cycles: seq<CycleRecord>, i: int)
    requires forall j :: 0 <= j < |cycles| && cycles[j].duration.Some? ==> cycles[j].duration.value >= 0.0
    requires 0 <= i < |ChartData(cycles)|
    ensures 0.0 <= BarWidth(ChartData(cycles)[i].duration, ComputeStatistics(cycles).max) <= 100.0
  {
    ChartMatchesDurations(cycles);
    StatisticsSound(cycles);
    var p := ChartData(cycles)[i];
    assert p in ChartData(cycles);
    var r :| r in cycles && r.duration == Some(p.duration) && r.cycleNumber == p.cycle;
    BarWidthBounded(p.duration, ComputeStatistics(cycles).max);
  }
}

=== FILE: mode2_training.dfy ===
/**
 * The manual (lap) training mode (src/components/Mode2Training.tsx): the
 * user starts, ends rounds, stops, resumes and finishes; each ended round
 * becomes a lap record timed by the wall clock. The elapsed-time
 * accumulator drives the on-screen timer. The clock is the parameter `now`.
 */
module Mode2Training {
  import opened Wrappers
  import opened Types
  import UseTimer

  datatype Mode2State = Mode2State(
    currentRound: int,
    isStopped: bool,
    cycles: seq<CycleRecord>,
    cycleStart: Option<Millis>,    // cycleStartTimeRef
    totalStart: Option<Millis>,    // totalStartTimeRef
    timer: UseTimer.TimerState)

  /** What `onFinish` receives. */
  datatype FinishData = FinishData(cycles: seq<CycleRecord>, totalDuration: Seconds)

  datatype Step = Step(state: Mode2State, finished: Option<FinishData>)

  function Initial(): Mode2State {
    Mode2State(0, false, [], None, None, UseTimer.Initial())
  }

  /**
   * `getButtonStates`: before the first start only Start is shown; when
   * stopped, End Round is shown but disabled next to Resume and Finish;
   * while running, End Round (enabled) and Stop are shown and Finish is not.
   */
  function GetButtonStates(s: Mode2State): (b: Mode2ButtonStates)
    ensures s.currentRound == 0 ==> b == Mode2ButtonStates(true, false, false, false, false, false)
    ensures s.currentRound != 0 && s.isStopped ==>
      b == Mode2ButtonStates(false, true, false, true, true, true)
    ensures s.currentRound != 0 && !s.isStopped ==>
      b == Mode2ButtonStates(false, true, true, false, false, false)
    ensures b.showStart <==> s.currentRound == 0
    ensures b.showEndRound && !b.endRoundDisabled <==> s.currentRound != 0 && !s.isStopped
  {
    if s.currentRound == 0 then
      Mode2ButtonStates(showStart := true, showEndRound := false, showStop := false,
                        showResume := false, showFinish := false, endRoundDisabled := false)
    else if s.isStopped then
      Mode2ButtonStates(showStart := false, showEndRound := true, showStop := false,
                        showResume := true, showFinish := true, endRoundDisabled := true)
    else
      Mode2ButtonStates(showStart := false, showEndRound := true, showStop := true,
                        showResume := false, showFinish := false, endRoundDisabled := false)
  }

  /** The record of a lap that began at `start` and ends at `end`. */
  function Lap(round: int, start: Millis, end: Millis): (r: CycleRecord)
    ensures r.cycleNumber == round
    ensures r.startTime == start as real && r.endTime == Some(end as real)
    ensures r.duration == Some(SecondsBetween(start, end))
    ensures r.duration.Some? && r.endTime.Some?
    ensures r.duration.value == (r.endTime.value - r.startTime) / 1000.0
    ensures start <= end ==> r.duration.value >= 0.0
  {
    CycleRecord(round, start as real, Some(end as real), Some(SecondsBetween(start, end)))
  }

  /** `handleStart`: round 1 opens at `now` and the timer starts. */
  function HandleStart(s: Mode2State, now: Millis): (r: Mode2State)
    ensures r.currentRound == 1 && !r.isStopped
    ensures r.cycleStart == Some(now) && r.totalStart == Some(now)
    ensures r.timer == UseTimer.Start(s.timer, now)
    ensures r.cycles == s.cycles
  {
    s.(timer := UseTimer.Start(s.timer, now), totalStart := Some(now),
       currentRound := 1, cycleStart := Some(now), isStopped := false)
  }

  /**
   * `handleEndRound`: seals the open lap at `now`, moves to the next round,
   * opens the next lap at `now` and restarts the timer from zero. Without an
   * open lap nothing happens.
   */
  function HandleEndRound(s: Mode2State, now: Millis): (r: Mode2State)
    ensures s.cycleStart.None? ==> r == s
    ensures s.cycleStart.Some? ==>
      && r.cycles == s.cycles + [Lap(s.currentRound, s.cycleStart.value, now)]
      && r.currentRound == s.currentRound + 1
      && r.cycleStart == Some(now)
      && r.timer == UseTimer.Restart(s.timer, now)
      && UseTimer.Elapsed(r.timer, now) == 0.0 && r.timer.isRunning
      && r.isStopped == s.isStopped && r.totalStart == s.totalStart
  {
    match s.cycleStart
    case Some(c) =>
      s.(cycles := s.cycles + [Lap(s.currentRound, c, now)],
         currentRound := s.currentRound + 1,
         cycleStart := Some(now),
         timer := UseTimer.Restart(s.timer, now))
    case None => s
  }

  /** `handleStop`: pauses the timer; laps and round are untouched. */
  function HandleStop(s: Mode2State, now: Millis): (r: Mode2State)
    ensures r.isStopped
    ensures r.(isStopped := s.isStopped, timer := s.timer) == s
    ensures r.timer == UseTimer.Pause(s.timer, now)
  {
    s.(timer := UseTimer.Pause(s.timer, now), isStopped := true)
  }

  /** `handleResume`: resumes the timer; laps and round are untouched. */
  function HandleResume(s: Mode2State, now: Millis): (r: Mode2State)
    ensures !r.isStopped
    ensures r.(isStopped := s.isStopped, timer := s.timer) == s
    ensures r.timer == UseTimer.Resume(s.timer, now)
  {
    s.(timer := UseTimer.Resume(s.timer, now), isStopped := false)
  }

  /**
   * `handleFinish`: the open lap is sealed at `now` when one was started and
   * the timer reports running (which it also does while stopped); the total
   * is the wall time since the start, or 0 if the run never started.
   */
  function HandleFinish(s: Mode2State, now: Millis): (d: FinishData)
    ensures s.cycleStart.Some? && s.timer.isRunning ==>
      d.cycles == s.cycles + [Lap(s.currentRound, s.cycleStart.value, now)]
    ensures !(s.cycleStart.Some? && s.timer.isRunning) ==> d.cycles == s.cycles
    ensures s.totalStart.None? ==> d.totalDuration == 0.0
    ensures s.totalStart.Some? ==>
      d.totalDuration == (now - s.totalStart.value) as real / 1000.0
  {
    var finalCycles :=
      if s.cycleStart.Some? && s.timer.isRunning then
        s.cycles + [Lap(s.currentRound, s.cycleStart.value, now)]
      else s.cycles;
    var total := match s.totalStart
      case Some(t) => SecondsBetween(t, now)
      case None => 0.0;
    FinishData(finalCycles, total)
  }

  datatype Button = StartButton | EndRoundButton | StopButton | ResumeButton | FinishButton

  /**
   * A click on a button. Only rendered buttons can be clicked, and a
   * disabled button never calls its handler.
   */
  function Press(s: Mode2State, b: Button, now: Millis): (r: Step)
    ensures r.finished.Some? <==> b == FinishButton && s.currentRound != 0 && s.isStopped
    ensures b == StartButton && s.currentRound != 0 ==> r == Step(s, None)
    ensures b == EndRoundButton && (s.currentRound == 0 || s.isStopped) ==> r == Step(s, None)
    ensures b == StopButton && (s.currentRound == 0 || s.isStopped) ==> r == Step(s, None)
    ensures b == ResumeButton && !s.isStopped ==> r == Step(s, None)
  {
    var shown := GetButtonStates(s);
    match b
    case StartButton =>
      if shown.showStart then Step(HandleStart(s, now), None) else Step(s, None)
    case EndRoundButton =>
      if shown.showEndRound && !shown.endRoundDisabled then Step(HandleEndRound(s, now), None)
      else Step(s, None)
    case StopButton =>
      if shown.showStop then Step(HandleStop(s, now), None) else Step(s, None)
    case ResumeButton =>
      if shown.showResume then Step(HandleResume(s, now), None) else Step(s, None)
    case FinishButton =>
      if shown.showFinish then Step(s, Some(HandleFinish(s, now))) else Step(s, None)
  }

  /** A lap sealed no later than `clock`, its duration its wall time. */
  ghost predicate SealedLap(r: CycleRecord, clock: Millis) {
    && r.endTime.Some? && r.duration.Some?
    && r.startTime <= r.endTime.value <= clock as real
    && r.duration.value == (r.endTime.value - r.startTime) / 1000.0
  }

  /**
   * The invariant of every state reachable with a clock that never reads
   * less than `clock`: before the start nothing is set; afterwards the k
   * sealed laps are numbered 1..k, the round is k+1, a lap is open since a
   * time no earlier than the start, and the timer runs, paused exactly when
   * the screen is stopped.
   */
  ghost predicate Inv(s: Mode2State, clock: Millis) {
    && (s.currentRound == 0 ==> s == Initial())
    && (s.currentRound != 0 ==>
          && s.currentRound >= 1
          && |s.cycles| == s.currentRound - 1
          && (forall i :: 0 <= i < |s.cycles| ==>
                s.cycles[i].cycleNumber == i + 1 && SealedLap(s.cycles[i], clock))
          && s.cycleStart.Some? && s.totalStart.Some?
          && s.totalStart.value <= s.cycleStart.value <= clock
          && s.timer.isRunning && s.timer.isPaused == s.isStopped
          && UseTimer.Valid(s.timer, clock))
  }

  lemma InitialInv(clock: Millis)
    ensures Inv(Initial(), clock)
  {
  }

  /** A later clock keeps every sealed lap sealed. */
  lemma InvLaterClock(s: Mode2State, clock: Millis, now: Millis)
    requires Inv(s, clock) && clock <= now
    ensures Inv(s, now)
  {
  }

  /** Every click keeps the invariant when the clock has not gone back. */
  lemma PressKeepsInv(s: Mode2State, clock: Millis, b: Button, now: Millis)
    requires Inv(s, clock) && clock <= now
    ensures Inv(Press(s, b, now).state, now)
  {
    InvLaterClock(s, clock, now);
    UseTimer.HandlersKeepValid(s.timer, clock, now);
    var r := Press(s, b, now).state;
    if b == EndRoundButton && s.currentRound != 0 && !s.isStopped {
      assert r.cycles == s.cycles + [Lap(s.currentRound, s.cycleStart.value, now)];
      assert forall i :: 0 <= i < |s.cycles| ==> r.cycles[i] == s.cycles[i];
    }
  }

  /** Clicks stamped with clock readings that never go backwards from `clock`. */
  ghost predicate Monotone(clock: Millis, clicks: seq<(Button, Millis)>) {
    && (forall i :: 0 <= i < |clicks| ==> clock <= clicks[i].1)
    && (forall i, j :: 0 <= i < j < |clicks| ==> clicks[i].1 <= clicks[j].1)
  }

  function Run(s: Mode2State, clicks: seq<(Button, Millis)>): Mode2State
    decreases |clicks|
  {
    if |clicks| == 0 then s
    else Run(Press(s, clicks[0].0, clicks[0].1).state, clicks[1..])
  }

  /** Any run of clicks on a monotone clock keeps the invariant. */
  lemma {:induction false} RunKeepsInv(s: Mode2State, clock: Millis, clicks: seq<(Button, Millis)>)
    requires Inv(s, clock) && Monotone(clock, clicks)
    ensures |clicks| > 0 ==> Inv(Run(s, clicks), clicks[|clicks| - 1].1)
    decreases |clicks|
  {
    if |clicks| > 0 {
      var (b, now) := clicks[0];
      PressKeepsInv(s, clock, b, now);
      if |clicks| > 1 {
        RunKeepsInv(Press(s, b, now).state, now, clicks[1..]);
      }
    }
  }

  /**
   * End Round is clickable exactly while the timer is running and not
   * paused, so a lap can never absorb stopped time through End Round.
   */
  lemma EndRoundOnlyWhileRunning(s: Mode2State, clock: Millis, now: Millis)
    requires Inv(s, clock)
    ensures var b := GetButtonStates(s);
      (b.showEndRound && !b.endRoundDisabled) <==> s.timer.isRunning && !s.timer.isPaused
    ensures s.isStopped ==> Press(s, EndRoundButton, now) == Step(s, None)
  {
  }

  /** Stop and Resume change neither the laps nor the round. */
  lemma StopResumeKeepLaps(s: Mode2State, b: Button, now: Millis)
    requires b == StopButton || b == ResumeButton
    ensures Press(s, b, now).state.cycles == s.cycles
    ensures Press(s, b, now).state.currentRound == s.currentRound
    ensures Press(s, b, now).finished.None?
  {
  }

  /**
   * Finish is only reachable from the stopped screen, and there the timer
   * still reports running, so the open lap is always sealed at the moment
   * of finishing: its wall-clock duration includes the stopped time. The
   * reported laps are numbered 1..n and each has a non-negative duration.
   */
  lemma FinishSealsOpenLap(s: Mode2State, clock: Millis, now: Millis)
    requires Inv(s, clock) && clock <= now
    requires Press(s, FinishButton, now).finished.Some?
    ensures var d := Press(s, FinishButton, now).finished.value;
      && s.isStopped && s.currentRound >= 1
      && d.cycles == s.cycles + [Lap(s.currentRound, s.cycleStart.value, now)]
      && |d.cycles| == s.currentRound
      && (forall i :: 0 <= i < |d.cycles| ==>
            d.cycles[i].cycleNumber == i + 1 && SealedLap(d.cycles[i], now))
      && d.totalDuration == (now - s.totalStart.value) as real / 1000.0 >= 0.0
  {
    InvLaterClock(s, clock, now);
    var d := Press(s, FinishButton, now).finished.value;
    assert forall i :: 0 <= i < |s.cycles| ==> d.cycles[i] == s.cycles[i];
  }

  /** Finishing a run that never started reports no laps and no time. */
  lemma FinishBeforeStart(now: Millis)
    ensures HandleFinish(Initial(), now) == FinishData([], 0.0)
  {
  }

  /**
   * Start at 0 s, end rounds at 10 s and 25 s, stop at 30 s, try End Round
   * at 31 s (ignored), resume at 40 s, stop at 50 s and finish at 60 s:
   * three laps of 10, 15 and 35 seconds, the last including the stops.
   */
  lemma ManualScenario()
    ensures var s1 := Press(Initial(), StartButton, 0).state;
      var s2 := Press(s1, EndRoundButton, 10000).state;
      var s3 := Press(s2, EndRoundButton, 25000).state;
      var s4 := Press(s3, StopButton, 30000).state;
      var s5 := Press(s4, EndRoundButton, 31000).state;
      var s6 := Press(s5, ResumeButton, 40000).state;
      var s7 := Press(s6, StopButton, 50000).state;
      var done := Press(s7, FinishButton, 60000).finished;
      && s5 == s4
      && |s4.cycles| == 2 && s4.cycles[0].cycleNumber == 1 && s4.cycles[1].cycleNumber == 2
      && done == Some(FinishData([Lap(1, 0, 10000), Lap(2, 10000, 25000), Lap(3, 25000, 60000)], 60.0))
      && Lap(3, 25000, 60000).duration == Some(35.0)
  {
    var s1 := Press(Initial(), StartButton, 0).state;
    var s2 := Press(s1, EndRoundButton, 10000).state;
    assert s2.cycles == [Lap(1, 0, 10000)];
    var s3 := Press(s2, EndRoundButton, 25000).state;
    assert s3.cycles == [Lap(1, 0, 10000), Lap(2, 10000, 25000)];
    var s4 := Press(s3, StopButton, 30000).state;
    assert s4.isStopped && s4.cycles == s3.cycles && s4.currentRound == 3;
    var s5 := Press(s4, EndRoundButton, 31000).state;
    var s6 := Press(s5, ResumeButton, 40000).state;
    var s7 := Press(s6, StopButton, 50000).state;
    assert s7.isStopped && s7.cycles == s3.cycles && s7.cycleStart == Some(25000);
    assert s7.timer.isRunning;
    assert s5 == s4;
    var done := Press(s7, FinishButton, 60000).finished;
    assert done == Some(HandleFinish(s7, 60000));
    assert HandleFinish(s7, 60000).cycles == [Lap(1, 0, 10000), Lap(2, 10000, 25000), Lap(3, 25000, 60000)];
  }
}

=== FILE: timer.dfy ===
/**
 * The elapsed-time accumulator behind the manual mode (src/hooks/useTimer.ts).
 *
 * The hook keeps an accumulated base (seconds run before the last pause) and
 * an optional start timestamp; the value it displays is sampled as
 * `base + (now - start) / 1000` while running and not paused. Here the clock
 * is the parameter `now` and every handler is a pure state transition.
 */
module UseTimer {
  import opened Wrappers
  import opened Types

  datatype TimerState = TimerState(
    base: Seconds,               // pausedTimeRef
    startEpoch: Option<Millis>,  // startTimeRef
    isRunning: bool,
    isPaused: bool)

  /** The freshly mounted hook. */
  function Initial(): TimerState {
    TimerState(0.0, None, false, false)
  }

  /**
   * The elapsed seconds the polling callback computes at `now`. While the
   * timer is stopped, paused or has no start timestamp nothing is sampled and
   * the value stays at the accumulated base.
   */
  function Elapsed(t: TimerState, now: Millis): Seconds {
    if t.isRunning && !t.isPaused && t.startEpoch.Some? then
      t.base + SecondsBetween(t.startEpoch.value, now)
    else
      t.base
  }

  /**
   * The states the handlers can reach when the clock never reads less than
   * `clock`: a stopped timer is the initial one, a running unpaused timer has
   * a start timestamp, no timestamp lies in the future and the base is never
   * negative.
   */
  predicate Valid(t: TimerState, clock: Millis) {
    && (!t.isRunning ==> t.base == 0.0 && t.startEpoch.None? && !t.isPaused)
    && (t.isRunning && !t.isPaused ==> t.startEpoch.Some?)
    && (t.startEpoch.Some? ==> t.startEpoch.value <= clock)
    && t.base >= 0.0
  }

  function Start(t: TimerState, now: Millis): (r: TimerState)
    ensures t.isRunning ==> r == t
    ensures !t.isRunning ==>
      && r.isRunning && !r.isPaused
      && r.startEpoch == Some(now)
      && r.base == t.base
  {
    if !t.isRunning then t.(startEpoch := Some(now), isRunning := true, isPaused := false)
    else t
  }

  function Pause(t: TimerState, now: Millis): (r: TimerState)
    ensures !(t.isRunning && !t.isPaused) ==> r == t
    ensures t.isRunning && !t.isPaused ==>
      && r.isRunning && r.isPaused
      && r.startEpoch.None?
      && r.base == Elapsed(t, now)
  {
    if t.isRunning && !t.isPaused then
      var folded := match t.startEpoch
        case Some(s) => t.(base := t.base + SecondsBetween(s, now), startEpoch := None)
        case None => t;
      folded.(isPaused := true)
    else t
  }

  function Resume(t: TimerState, now: Millis): (r: TimerState)
    ensures !(t.isRunning && t.isPaused) ==> r == t
    ensures t.isRunning && t.isPaused ==>
      && r.isRunning && !r.isPaused
      && r.startEpoch == Some(now)
      && r.base == t.base
  {
    if t.isRunning && t.isPaused then t.(startEpoch := Some(now), isPaused := false)
    else t
  }

  function Reset(t: TimerState): (r: TimerState)
    ensures r == Initial()
    ensures forall now :: Elapsed(r, now) == 0.0
  {
    TimerState(0.0, None, false, false)
  }

  /**
   * Zeroes the base and restarts from `now` in one step. The running and
   * paused flags are only written when the timer was not running, so a
   * paused running timer stays flagged paused.
   */
  function Restart(t: TimerState, now: Millis): (r: TimerState)
    ensures r.isRunning
    ensures r.base == 0.0 && r.startEpoch == Some(now)
    ensures Elapsed(r, now) == 0.0
    ensures r.isPaused == (t.isRunning && t.isPaused)
  {
    var zeroed := t.(base := 0.0, startEpoch := Some(now));
    if !t.isRunning then zeroed.(isRunning := true, isPaused := false) else zeroed
  }

  /** The hook's initial state reads zero, not running and not paused. */
  lemma InitialIsZero(clock: Millis)
    ensures Valid(Initial(), clock)
    ensures Elapsed(Initial(), clock) == 0.0
    ensures !Initial().isRunning && !Initial().isPaused
  {
  }

  /** Reading the elapsed value never changes with the clock while paused. */
  lemma PausedIsFrozen(t: TimerState, a: Millis, b: Millis)
    requires t.isPaused || !t.isRunning
    ensures Elapsed(t, a) == Elapsed(t, b)
  {
  }

  /** With a valid state, a later clock never reads less elapsed time. */
  lemma ElapsedGrowsWithClock(t: TimerState, clock: Millis, a: Millis, b: Millis)
    requires Valid(t, clock)
    requires clock <= a <= b
    ensures Elapsed(t, clock) >= t.base
    ensures Elapsed(t, a) <= Elapsed(t, b)
  {
  }

  /** Each handler keeps the state valid when the clock has not gone back. */
  lemma HandlersKeepValid(t: TimerState, clock: Millis, now: Millis)
    requires Valid(t, clock) && clock <= now
    ensures Valid(Start(t, now), now)
    ensures Valid(Pause(t, now), now)
    ensures Valid(Resume(t, now), now)
    ensures Valid(Reset(t), now)
    ensures Valid(Restart(t, now), now)
  {
  }

  /**
   * Start, pause and resume do not make the elapsed value jump at the
   * instant they happen: pause folds exactly the running stretch into the
   * base and resume continues from the frozen value.
   */
  lemma HandlersDoNotJump(t: TimerState, clock: Millis, now: Millis)
    requires Valid(t, clock) && clock <= now
    ensures Elapsed(Start(t, now), now) == Elapsed(t, now)
    ensures Elapsed(Pause(t, now), now) == Elapsed(t, now)
    ensures Elapsed(Resume(t, now), now) == Elapsed(t, now)
  {
  }

  /** The handlers a run without reset or restart may call, plus plain sampling. */
  datatype TimerEvent = StartEvent | PauseEvent | ResumeEvent | Sample

  function Apply(t: TimerState, e: TimerEvent, now: Millis): TimerState {
    match e
    case StartEvent => Start(t, now)
    case PauseEvent => Pause(t, now)
    case ResumeEvent => Resume(t, now)
    case Sample => t
  }

  /** Events stamped with clock readings that never go backwards from `clock`. */
  ghost predicate Monotone(clock: Millis, events: seq<(TimerEvent, Millis)>) {
    && (forall i :: 0 <= i < |events| ==> clock <= events[i].1)
    && (forall i, j :: 0 <= i < j < |events| ==> events[i].1 <= events[j].1)
  }

  function Run(t: TimerState, events: seq<(TimerEvent, Millis)>): TimerState
    decreases |events|
  {
    if |events| == 0 then t
    else Run(Apply(t, events[0].0, events[0].1), events[1..])
  }

  /**
   * Across any sequence of start, pause and resume calls without reset, the
   * elapsed value read after each event is never less than the one read
   * before the run.
   */
  lemma {:induction false} ElapsedNeverDecreases(
    t: TimerState, clock: Millis, events: seq<(TimerEvent, Millis)>)
    requires Valid(t, clock)
    requires Monotone(clock, events)
    ensures |events| > 0 ==>
      Valid(Run(t, events), events[|events| - 1].1) &&
      Elapsed(t, clock) <= Elapsed(Run(t, events), events[|events| - 1].1)
    decreases |events|
  {
    if |events| > 0 {
      var (e, now) := events[0];
      var t' := Apply(t, e, now);
      HandlersKeepValid(t, clock, now);
      ElapsedGrowsWithClock(t, clock, clock, now);
      HandlersDoNotJump(t, clock, now);
      assert Elapsed(t, clock) <= Elapsed(t', now);
      if |events| > 1 {
        ElapsedNeverDecreases(t', now, events[1..]);
      }
    }
  }

  /**
   * Start, run one second, pause, then let one more second pass: the value
   * read is one second both right after the pause and a second later.
   */
  lemma PauseFreezesScenario()
    ensures var paused := Pause(Start(Initial(), 0), 1000);
      Elapsed(paused, 1000) == 1.0 && Elapsed(paused, 2000) == 1.0 &&
      paused.isRunning && paused.isPaused
  {
  }
}

=== FILE: timer_display.dfy ===
/**
 * The clock face of both training screens (src/components/TimerDisplay.tsx):
 * whole minutes and seconds, each zero-padded to two digits, as "MM:SS".
 */
module TimerDisplay {
  import opened Wrappers
  import opened Digits
  import JsMath

  function Pad2(s: string): string {
    PadStart(s, 2, '0')
  }

  /** `Math.floor(totalSeconds / 60)`. */
  function Minutes(totalSeconds: real): int {
    JsMath.Floor(totalSeconds / 60.0)
  }

  /** `Math.floor(totalSeconds % 60)`. */
  function SecondsField(totalSeconds: real): int {
    JsMath.Floor(JsMath.Rem(totalSeconds, 60.0))
  }

  /** Both fields rendered with `toString()` and padded to two characters. */
  function Face(mins: int, secs: int): string {
    Pad2(IntToString(mins)) + ":" + Pad2(IntToString(secs))
  }

  /**
   * `formatTime`: whole minutes, a colon, and the whole seconds within the
   * minute; for a non-negative time the seconds field is two digits.
   */
  function FormatTime(totalSeconds: real): (r: string)
    ensures |r| >= 5
    ensures totalSeconds >= 0.0 ==> r[|r| - 3] == ':'
  {
    if totalSeconds >= 0.0 then
      JsMath.MinutesSeconds(totalSeconds);
      FaceShape(Minutes(totalSeconds), SecondsField(totalSeconds));
      Face(Minutes(totalSeconds), SecondsField(totalSeconds))
    else
      Face(Minutes(totalSeconds), SecondsField(totalSeconds))
  }

  /** Reads "MM:SS" back as a number of whole seconds. */
  function ParseClock(r: string): Option<int> {
    if |r| >= 4 && r[|r| - 3] == ':' && AllDigits(r[..|r| - 3]) && AllDigits(r[|r| - 2..]) then
      Some(ParseNat(r[..|r| - 3]) * 60 + ParseNat(r[|r| - 2..]))
    else
      None
  }

  /** The face of non-negative fields with the seconds below a minute. */
  lemma FaceShape(mins: nat, secs: nat)
    requires secs < 60
    ensures var r := Face(mins, secs);
      && |r| >= 5
      && r[|r| - 3] == ':'
      && r[..|r| - 3] == Pad2(NatToString(mins))
      && r[|r| - 2..] == Pad2(NatToString(secs))
      && AllDigits(r[..|r| - 3]) && AllDigits(r[|r| - 2..])
      && ParseNat(r[..|r| - 3]) == mins
      && ParseNat(r[|r| - 2..]) == secs
  {
    var m := Pad2(NatToString(mins));
    var s := Pad2(NatToString(secs));
    PaddedField(mins);
    PaddedField(secs);
    ColonSplit(m, s);
    assert Face(mins, secs) == m + ":" + s;
  }

  /** A padded field is at least two digits, exactly two below 100, and reads back as the number. */
  lemma PaddedField(n: nat)
    ensures var p := Pad2(NatToString(n));
      && |p| >= 2 && (n < 100 ==> |p| == 2)
      && AllDigits(p) && ParseNat(p) == n
  {
    PaddedNatRoundTrip(n, 2);
  }

  /** Joining two fields around a colon, the second two characters long. */
  lemma ColonSplit(a: string, b: string)
    requires |b| == 2
    ensures var r := a + ":" + b;
      && |r| == |a| + 3 && r[|r| - 3] == ':'
      && r[..|r| - 3] == a && r[|r| - 2..] == b
  {
    var r := a + ":" + b;
    assert r[..|r| - 3] == a;
    assert r[|r| - 2..] == b;
  }

  /**
   * For a non-negative input the seconds field is two digits in 00..59, so
   * the colon sits third from the end and the face is at least five
   * characters long; the minutes are padded but never capped.
   */
  lemma FormatTimeShape(totalSeconds: real)
    requires totalSeconds >= 0.0
    ensures var r := FormatTime(totalSeconds);
      && |r| >= 5
      && r[|r| - 3] == ':'
      && AllDigits(r[..|r| - 3]) && AllDigits(r[|r| - 2..])
      && ParseNat(r[|r| - 2..]) <= 59
      && r[..|r| - 3] == Pad2(NatToString(Minutes(totalSeconds)))
  {
    JsMath.MinutesSeconds(totalSeconds);
    FaceShape(Minutes(totalSeconds), SecondsField(totalSeconds));
  }

  /**
   * The face loses nothing but the fraction: its two fields read back give
   * `floor(totalSeconds)` for every non-negative input.
   */
  lemma ParseFormatTime(totalSeconds: real)
    requires totalSeconds >= 0.0
    ensures ParseClock(FormatTime(totalSeconds)) == Some(totalSeconds.Floor)
  {
    var mins, secs := Minutes(totalSeconds), SecondsField(totalSeconds);
    JsMath.MinutesSeconds(totalSeconds);
    FaceReadsBack(mins, secs);
    assert FormatTime(totalSeconds) == Face(mins, secs);
  }

  /** A face of non-negative fields, seconds below a minute, reads back as `mins * 60 + secs`. */
  lemma FaceReadsBack(mins: nat, secs: nat)
    requires secs < 60
    ensures ParseClock(Face(mins, secs)) == Some(mins * 60 + secs)
  {
    FaceShape(mins, secs);
  }

  /** 125 seconds and 125.7 seconds both read "02:05". */
  lemma ExampleTwoMinutes()
    ensures FormatTime(125.0) == "02:05"
    ensures FormatTime(125.7) == "02:05"
  {
    assert Minutes(125.0) == 2 && SecondsField(125.0) == 5;
    assert Minutes(125.7) == 2 && SecondsField(125.7) == 5;
    assert Face(2, 5) == "02:05";
  }

  /** Zero reads "00:00" and 65 seconds read "01:05". */
  lemma ExampleSmall()
    ensures FormatTime(0.0) == "00:00"
    ensures FormatTime(65.0) == "01:05"
  {
    assert Minutes(0.0) == 0 && SecondsField(0.0) == 0;
    assert Face(0, 0) == "00:00";
    assert Minutes(65.0) == 1 && SecondsField(65.0) == 5;
    assert Face(1, 5) == "01:05";
  }

  /** An hour and a minute and a second reads "61:01": minutes are not capped. */
  lemma ExampleLarge()
    ensures FormatTime(3661.0) == "61:01"
  {
    assert Minutes(3661.0) == 61 && SecondsField(3661.0) == 1;
    assert NatToString(61) == "61";
    assert Face(61, 1) == "61:01";
  }
}

=== FILE: types.dfy ===
/**
 * The data model shared by the training modes, the results views and the
 * session store (src/utils/types.ts).
 *
 * Units: timestamps are milliseconds since the epoch as returned by the
 * browser clock; durations are seconds as JavaScript numbers, hence `real`.
 * Record and session timestamps are `real` because the application derives
 * some of them as `now - totalDuration * 1000`.
 */
module Types {
  import opened Wrappers

  /** Milliseconds read from the clock (`Date.now()`), always an integer. */
  type Millis = int

  /** A JavaScript number holding seconds. */
  type Seconds = real

  datatype TrainingMode = Mode1 | Mode2

  /** `numberOfCycles: number | 'unlimited'`. */
  datatype CycleLimit = Unlimited | Limited(n: real)

  datatype Mode1Config = Mode1Config(
    cycleDuration: Seconds,
    restTime: Seconds,
    numberOfCycles: CycleLimit,
    bufferTime: Seconds)

  /** `config: Mode1Config | Mode2Config`; the mode-2 config is the empty object. */
  datatype SessionConfig = Mode1Settings(settings: Mode1Config) | EmptyConfig

  datatype CycleRecord = CycleRecord(
    cycleNumber: int,
    startTime: real,
    endTime: Option<real>,
    duration: Option<Seconds>)

  datatype TrainingSession = TrainingSession(
    id: string,
    mode: TrainingMode,
    config: SessionConfig,
    startTime: real,
    endTime: Option<real>,
    totalDuration: Option<Seconds>,
    cycles: seq<CycleRecord>,
    totalRounds: int)

  /** The phases of the automatic (timed) mode. */
  datatype Mode1TrainingState = Idle | Buffer | Cycle | Rest | Finished

  /** Which manual-mode buttons are rendered, and whether End Round is disabled. */
  datatype Mode2ButtonStates = Mode2ButtonStates(
    showStart: bool,
    showEndRound: bool,
    showStop: bool,
    showResume: bool,
    showFinish: bool,
    endRoundDisabled: bool)

  /** Seconds between two clock readings: `(later - earlier) / 1000`. */
  function SecondsBetween(earlier: Millis, later: Millis): (d: Seconds)
    ensures earlier <= later <==> d >= 0.0
    ensures later == earlier ==> d == 0.0
    ensures d * 1000.0 == (later - earlier) as real
  {
    (later - earlier) as real / 1000.0
  }
}

=== FILE: wrappers.dfy ===
/** Optional values, standing in for TypeScript's `T | undefined` and `T | null`. */
module Wrappers {

  datatype Option<+T> = None | Some(value: T)
}
